=== FILE: README.md ===
# Multi-registry cache generator — Dafny model

The generator reads one configuration and writes the files that run several
Docker registries behind one Traefik proxy with a shared Redis:

- one `compose/<name>.yaml` registry configuration per registry;
- `compose.yaml`, with one service per registry;
- `traefik.yaml`, with one router and one service per registry;
- `redis.conf`, with one database per registry.

Only some of what it writes is interpolated with a registry's fields through
Python's `str.format_map`. These are the base registry configuration and the
per-registry templates: the compose service, the Traefik router and the Traefik
service. The base compose and Traefik documents are written as loaded, apart
from the per-registry entries merged into them. `redis.conf` is the literal text
`databases N`.

This project models that core as pure Dafny functions over immutable values
and proves what they do:

- `errors.dfy` (module `Errors`): the exceptions the core can raise, as an
  `Error` datatype, and the `Result`/`Option` wrappers.
- `values.dfy` (module `Values`): YAML documents (strings, insertion-ordered
  mappings, lists, other scalars) and the dictionary operations the code uses.
  These are lookup, assignment (an existing key keeps its place, a new key is
  appended), nested assignment `d[a][b] = x` and Python truthiness.
- `templates.dfy` (module `Templates`): `str.format_map` restricted to plain
  `{name}` fields and doubled braces, scanned left to right. The direct scanner
  `Format` is paired with a reference definition, a parser into pieces (`Parse`),
  a renderer (`Render`) and a writer back to text (`Unparse`).
- `interpolate.dfy` (module `Interpolation`): `interpolate_strings`, paired with
  the reference "format every string of the document in traversal order".
- `fragments.dfy` (module `Fragments`): `create_docker_service`,
  `create_traefik_router` and `create_traefik_service`. Each is `{}` updated
  with the customisation and then interpolated.
- `registry_config.dfy` (module `RegistryConfig`): `create_registry_config`.
  It writes the URL, the credentials and the TTL into `proxy`, interpolates the
  document, and writes the Redis database slot into a truthy `redis` section.
- `generate.dfy` (module `Generate`): the loop over the registries in
  `generate.py`. For each registry it:
  - defaults `type` to `cache`;
  - builds the registry's configuration from a fresh copy of the base template,
    with the next slot;
  - drops the password;
  - merges the three fragments under the registry's name.

  The loop stops at the first error. At the end, `redis.conf` reads
  `databases N`.

The model returns values instead of mutating them in place. Every write the
source makes into a dictionary becomes a new value. The base template's deep
copy (generate.py line 61) is the immutable template passed unchanged to
each registry.

## Model

| member | source | states |
|---|---|---|
| Templates.Format | functions.py:19-21 | A template with no braces formats to itself under every variable map. |
| Templates.FormatIsParseThenRender | functions.py:21 | A well-formed template formats to exactly the rendering of its parsed pieces. A template that does not parse fails. |
| Templates.FormatOkIff | functions.py:21 | `format_map` succeeds exactly when the template is well formed and every placeholder names a variable of the map. |
| Templates.RenderOkIff | functions.py:21 | Substituting pieces succeeds exactly when every field is bound. |
| Templates.ParseUnparse | functions.py:21 | Reading back the text written for supported pieces gives exactly those pieces. |
| Templates.UnparseParse | functions.py:21 | Every well-formed template is the text of its pieces, and all of them are plain names. |
| Templates.FormatUnparse | functions.py:21 | Formatting the text of pieces substitutes exactly those fields and nothing else. |
| Templates.EscapeRoundTrip | functions.py:21 | Doubled braces are literal braces: the escaped text of any string formats back to that string. |
| Templates.FormatPieceThen | functions.py:21 | Formatting runs left to right. The first piece's error wins, otherwise its value is followed by the rest's value or the rest's error. |
| Templates.FormatPlaceholder | functions.py:21 | `{name}` becomes the variable's value verbatim. An unbound name raises a missing-variable error (`KeyError`) carrying that name. |
| Templates.TwoPlaceholders | tests/test_functions.py:9-13 | `"{a} {b}"` with both names bound formats to the two values joined by a space. |
| Templates.UnmatchedBraceFails | functions.py:21 | After text with no braces, a single `}` that is not doubled, or a `{` that ends the text, raises an unmatched-brace error (`ValueError`). |
| Values.Select | generate.py:79-81 | A subscript succeeds exactly when the value is a mapping that has the key, and gives the key's value. On a mapping the error is the missing-key error (`KeyError`). |
| Values.SetAt | functions.py:98-108 | A nested assignment succeeds exactly when every proper prefix of the path leads to a mapping. Afterwards the path holds the value and can be written again, every diverging path holds what it held, and an assignment below the top level keeps the top-level keys. |
| Values.WritableKept | generate.py:80-81 | An assignment at one path does not change whether a diverging path can be written. |
| Interpolation.Interpolate | functions.py:8-30 | A successful interpolation keeps the document's shape: the same kind of node everywhere, the same keys in the same order, the same list lengths and the same non-string scalars. |
| Interpolation.InterpolateEntries | functions.py:22-24 | The dictionary comprehension keeps every key, in order, and each value's shape. |
| Interpolation.InterpolateItems | functions.py:25-27 | The list comprehension keeps the length and each element's shape. |
| Interpolation.InterpolateByLeaves | functions.py:8-30 | Interpolating equals formatting the document's strings in traversal order. It succeeds exactly when that does, fails with the same first error, and the result's strings are the formatted ones. |
| Interpolation.InterpolateOkIff | functions.py:19-27 | Interpolation succeeds exactly when every string in the document formats. |
| Interpolation.NoPlaceholdersUnchanged | functions.py:19-30 | A document none of whose strings holds a brace is returned unchanged. |
| Interpolation.LookupInterpolated | functions.py:24 | A key is in the interpolated mapping exactly when it is in the template mapping, and its value is the interpolation of the template's value. |
| Interpolation.InterpolateAt | functions.py:22-27 | At every key path, the result holds the interpolation of what the template holds there, or both hold nothing. |
| Interpolation.TruthinessKept | functions.py:22-30 | Interpolation never changes the truthiness of a mapping, list or non-string scalar. |
| Interpolation.LeavesSetAt | functions.py:98-103 | After a nested assignment, every string of the document was already in it or comes from the assigned value. |
| Interpolation.BadLeafFails | functions.py:21-27 | One string that fails to format fails the whole interpolation. |
| Fragments.UpdateFresh | functions.py:45 | `dict.update` with keys new to the target appends the entries in their order. |
| Fragments.UpdateFromEmpty | functions.py:43-45 | Updating `{}` with a mapping whose keys are distinct copies its entries in order. |
| Fragments.BuildFragment | functions.py:43-47 | The built fragment is exactly the interpolation of the customisation mapping. An empty string or empty list updates nothing and gives `{}`. Any other customisation that is not a mapping is refused by `dict.update` (`TypeError`/`ValueError`). |
| Fragments.BuildFragmentIsFragment | functions.py:43-47 | The builder's result has the customisation's keys in its order. An empty customisation, empty string or empty list gives an empty mapping. |
| Fragments.CreateDockerService | functions.py:33-47 | The compose service is the interpolated customisation, with the guarantees of the two rows above. |
| Fragments.CreateTraefikRouter | functions.py:50-66 | The Traefik router is the interpolated customisation, with the same guarantees. |
| Fragments.CreateTraefikService | functions.py:68-83 | The Traefik service is the interpolated customisation, with the same guarantees. |
| Fragments.UnboundPlaceholderFails | functions.py:43-47 | A customisation with a string anywhere in it, however deeply nested, that uses a variable the registry lacks cannot be built. |
| Fragments.Update | functions.py:45 | `dict.update` leaves the keys of both mappings. A key the update lacks keeps the target's value. When the update's keys are distinct, each of them takes the update's value. |
| RegistryConfig.Item | functions.py:98-103 | `registry[k]` succeeds exactly when the key is present, giving its value. Otherwise it raises the missing-key error naming `k`. |
| RegistryConfig.SetProxyFields | functions.py:98-103 | The proxy writes succeed exactly when `url`, `username` and `ttl` are present, `proxy` is a mapping, and `password` is present whenever `username` is non-empty. A missing `url` is the first error. The top-level keys are kept. |
| RegistryConfig.Credentials | functions.py:99-101 | Username and password are written together when both are non-empty, and otherwise neither is. The password is not read when the username is empty. |
| RegistryConfig.ProxyFieldsWritten | functions.py:98-103 | Before interpolation, `proxy.remoteurl` is the URL. The credentials are the registry's when both are non-empty, else the template's. `proxy.ttl` is the registry's when non-empty, else the template's. |
| RegistryConfig.ProxyRestUnchanged | functions.py:98-103 | Before interpolation, nothing outside the four proxy fields changes. |
| RegistryConfig.AssignSlot | functions.py:107-108 | `redis` must exist. When it is truthy it must be a mapping and gets `db`, with nothing else changed. When it is falsy the document is returned as it is. |
| RegistryConfig.CreateRegistryConfig | functions.py:86-110 | A missing `url` raises before anything else. Success needs `url`, `username`, `ttl`, a `proxy` mapping and a `redis` key, and keeps the template's top-level keys in order. |
| RegistryConfig.RemoteUrlAlwaysSet | functions.py:98-105 | `proxy.remoteurl` is always the registry's URL, itself interpolated. |
| RegistryConfig.CredentialsOnlyAsPair | functions.py:99-105 | The credentials are the registry's (interpolated) exactly when both are non-empty. Otherwise both are the template's, interpolated, or absent. |
| RegistryConfig.TtlOnlyWhenNonEmpty | functions.py:102-105 | `proxy.ttl` is the registry's (interpolated) TTL when that is non-empty, and the template's otherwise. |
| RegistryConfig.RestOfTemplateInterpolated | functions.py:98-110 | Outside the four proxy fields and `redis.db`, the result is the template interpolated. |
| RegistryConfig.SlotAssigned | functions.py:105-108 | `redis.db` is the slot exactly when the interpolated `redis` section is truthy, in which case that section is a mapping. A falsy section is left as it is. A mapping section is truthy exactly when the template's is non-empty. |
| RegistryConfig.EmptyRedisSectionUntouched | functions.py:107-108 | An empty `redis` section stays empty and gets no `db`. |
| RegistryConfig.CreateRegistryConfigOkIff | functions.py:86-110 | The call succeeds exactly when all three of these hold. First, `url`, `username` and `ttl` are present, `proxy` is a mapping, and `password` is present when the username is non-empty. Second, every string of the template after the proxy writes formats. Third, the template has a `redis` section that is a mapping or interpolates to a falsy value. |
| RegistryConfig.CreateRegistryConfigSucceeds | functions.py:86-110 | A condition on the inputs alone that makes the call succeed: the proxy fields are ready, `redis` is a mapping or a falsy non-string, and every string of the template and every registry field formats. |
| RegistryConfig.CacheRegistryExample | tests/test_functions.py:16-30 | On the test's inputs, slot 2, the call succeeds and the four proxy fields are the registry's URL, username, password and TTL verbatim. The empty `redis` section stays empty, with no `db`. |
| Generate.WithDefaultType | generate.py:56-57 | A registry without `type` gets `type: cache`. Every other field, and an existing `type`, is unchanged. |
| Generate.WithoutPassword | generate.py:71-72 | The password is removed and every other field is kept. |
| Generate.FragmentVars | generate.py:56-79 | The variables the fragments see have a `type` and never a `password`. |
| Generate.Merge | generate.py:79-81 | The right-hand side is built first. On success the document holds the fragment at the path and is unchanged at every diverging path. A missing per-registry template is the error. |
| Generate.MergeOkIff | generate.py:79-81 | A merge succeeds exactly when the template exists, its fragment builds and the document can be written at the path. The result is that assignment, and the path can be written again. |
| Generate.FileOf | generate.py:60-62 | The file is named after the registry, and its configuration has the base template's top-level keys. |
| Generate.Contribute | generate.py:79-81 | The registry's service, router and Traefik service are the fragments built from their templates. Nothing else in the compose and Traefik documents changes. |
| Generate.RegistryStep | generate.py:51-88 | A missing `name` is the first error. A successful step appends the registry's configuration file and advances the slot by one. |
| Generate.Run | generate.py:50-88 | A successful loop writes one file per registry, and the slot counts the registries. |
| Generate.GenerateAll | generate.py:47-94 | A successful generation writes one file per registry, and `redis.conf` reads `databases ` followed by the registry count in decimal. |
| Generate.Decimal | generate.py:94 | The count is rendered as non-empty decimal digits, with no leading zero except for zero. |
| Generate.DecimalRoundTrip | generate.py:94 | The digits written denote the count. |
| Generate.RunAppend | generate.py:50-88 | Looping over two lists in turn is looping over their concatenation, and an error in the first list ends the whole loop. |
| Generate.FailFast | generate.py:50-88 | The first registry that raises decides the outcome, whatever the registries after it hold. |
| Generate.FileOfRegistry | generate.py:56-63 | The k-th file is named after the k-th registry. Its content is `create_registry_config` of the base template, the registry with its default type, and slot k. |
| Generate.StepWrites | generate.py:79-81 | A step puts the registry's three fragments under its name and changes nothing else in the compose and Traefik documents. |
| Generate.OtherNamesKeep | generate.py:79-81 | Registries with other names never touch a name's fragments. |
| Generate.FragmentsOfRegistry | generate.py:50-88 | The output holds each registry's fragments under its name, unless a later registry has the same name, in which case the later one wins. |
| Generate.ReadyWritable | generate.py:79-81 | The compose document has a `services` mapping and the Traefik document has `http.routers` and `http.services` mappings exactly when all three paths under any name can be written. |
| Generate.ContributeOkIff | generate.py:79-81 | The three assignments succeed exactly when the three templates exist and build, and each target path can be written in the documents as they were before the step. |
| Generate.ContributeKeepsReady | generate.py:79-81 | After a successful contribution the documents still have the three sections, so the next registry finds them. |
| Generate.StepOkIff | generate.py:51-88 | A step succeeds exactly when the documents are ready and the registry builds. That is: it has a name, its configuration builds with the current slot, and the three fragments build from its variables without the password. |
| Generate.FoldOkIff | generate.py:50-88 | A loop whose body succeeds exactly on a ready state and a fine element, and keeps the state ready while counting up, succeeds exactly when it starts ready (if there is any element) and every element is fine at its own count. |
| Generate.RunIsFold | generate.py:50-88 | The loop over the registries is that fold of its body. |
| Generate.RunOkIff | generate.py:50-88 | The loop succeeds exactly when the documents start ready (if there is any registry) and every registry builds with its slot, counted on from the starting one. |
| Generate.GenerateOkIff | generate.py:47-94 | The generation succeeds exactly when, if there is any registry, the base compose and Traefik documents have the three sections, and the k-th registry builds on its own with slot k. Whether a registry builds never depends on the registries before it. |
| Generate.OneRegistryGenerates | generate.py:47-94 | One registry that builds, over ready documents, generates one file named after it and `redis.conf` reading `databases 1`. |
| Generate.GenerateExample | generate.py:47-94 | The test suite's cache registry, with empty per-registry templates and documents with empty sections, generates one file named `example` and `redis.conf` reading `databases 1`. |
| Generate.PasswordNeverInterpolated | generate.py:69-81 | The password is removed before the fragments are built. So a compose, router or Traefik-service template with a string anywhere in it that uses `{password}` fails the generation of any non-empty registry list. |

## Left out

- Loading `config.yaml` and extracting its sections (generate.py lines 17-36): the sections are the `Settings` parameter. A missing section is not modelled.
- Creating the `compose` directories, writing YAML and text files, the deprecated `docker-compose.yml` prompt and every console message. These are I/O, and the model returns the documents and the text instead of writing them.
- `write_http_secret` and the `console` object are not part of this model. They are called but not defined in `functions.py`, and they touch only the file system and the terminal.
- `setup.py`, the interactive wizard that writes `config.yaml`, is not part of this model: it only prompts and writes files. A private registry it adds (setup.py lines 83-90) has only `name` and `type`, so the generation fails on it with the missing-`url` error (RegistryConfig.CreateRegistryConfig).
- Files written before an error: the model returns only the error, not the files the loop had already written before it raised.
- Generate.RegistryStep: the source changes each registry in place: line 57 adds `type` and line 72 pops `password`. The model works on copies, so it does not model aliasing. A YAML alias that lists the same registry twice makes the second pass find the password already popped. If the username is non-empty, that pass raises `KeyError('password')` at functions.py line 99. The model's second step succeeds.
- Generate.Run: two registries with the same name overwrite the same `compose/<name>.yaml` on disk. The model keeps both in the list of files, in order, so the last one is what the file ends up holding.
- Templates.Format: only plain `{name}` fields and doubled braces are modelled. Positional, attribute, index, conversion and format-spec fields are reported as `UnsupportedField` instead of whatever `str.format_map` does with them. Only ASCII digits make a field positional: a field made entirely of other Unicode decimal digits (such as an Arabic-Indic digit) is looked up as a name here, while CPython rejects it as a positional field.
- Templates.Format: a field runs to the first `}`. A field name containing `{` is `UnsupportedField` here. CPython refuses it too, with a `ValueError` ("unexpected '{' in field name"), so only the kind of error differs.
- Key order on disk: `yaml.dump` sorts mapping keys when it writes (functions.py line 122). The model's documents keep insertion order, which is the order the generator walks them in.
- YAML floats, dates and timestamps, and mapping keys that are not strings, are not represented. The core passes such scalars through unchanged, like the other non-string scalars.
- Registry fields are strings, so truthiness on line 99 and 102 is non-emptiness. Non-string registry values are not modelled.
- Fragments.BuildFragment: the equation with `Interpolate` is stated for customisations whose keys are distinct, which every mapping the YAML loader builds is. `dict.update` from a non-empty list (a list of pairs, which Python accepts) is reported as `BadUpdate`.
- Fragments.CreateDockerService: inherits the list-of-pairs gap of Fragments.BuildFragment.
- Fragments.CreateTraefikRouter: inherits the list-of-pairs gap of Fragments.BuildFragment.
- Fragments.CreateTraefikService: inherits the list-of-pairs gap of Fragments.BuildFragment.
- RegistryConfig.AssignSlot: `int(db)` is the identity, because the slot is always an integer here.
- The test at tests/test_functions.py lines 16-31 expects `redis.db` in an empty `redis` section, and the one at lines 34-39 expects `proxy` to be removed for a registry of type `registry` that has no `url`. The code does neither: an empty section is falsy (RegistryConfig.EmptyRedisSectionUntouched) and a missing `url` raises (RegistryConfig.CreateRegistryConfig). The model follows the code.

=== FILE: errors.dfy ===
/**
 The failures the configuration engine can raise, and the failure-compatible
 wrappers every operation of the model returns.

 Each constructor of `Error` stands for one Python exception the generator
 lets escape: a `KeyError` from `str.format_map` or from a dictionary lookup,
 a `ValueError` from an unbalanced brace in a template, and a `TypeError` from
 subscripting something that is not a dictionary.
 */
module Errors {

  datatype Error =
    /** A placeholder `{name}` whose name is not in the variable map. */
    | MissingVariable(name: string)
    /** A lone `}`, a `{` at the end of the text, or a `{` with no closing `}`. */
    | UnmatchedBrace
    /** A replacement field that is not a plain `{name}` (positional, attribute,
        index, conversion or format-spec fields). */
    | UnsupportedField(field: string)
    /** A dictionary lookup of a key the dictionary does not hold. */
    | MissingKey(key: string)
    /** A subscript (read or write) with key `key` on a value that is not a mapping. */
    | NotAMapping(key: string)
    /** `dict.update` given something other than a mapping. */
    | BadUpdate

  datatype Option<+T> = None | Some(value: T)

  /** Success carries the value; failure carries the first error raised. */
  datatype Result<+T> = Ok(value: T) | Err(error: Error) {

    predicate IsFailure() {
      Err?
    }

    function PropagateFailure<U>(): Result<U>
      requires Err?
    {
      Err(error)
    }

    function Extract(): T
      requires Ok?
    {
      value
    }
  }
}

=== FILE: fragments.dfy ===
/**
 The per-registry fragment builders of functions.py lines 33-83:
 `create_docker_service`, `create_traefik_router` and
 `create_traefik_service`. All three start from an empty dictionary, copy the
 customisation mapping into it with `dict.update`, and interpolate the copy
 against the registry's fields. They differ only in which customisation the
 caller passes.
 */
module Fragments {
  import opened Errors
  import opened Values
  import opened Templates
  import opened Interpolation

  /** `acc.update(other)`: the entries of `other`, in order, assigned into
      `acc`. The result has the keys of both; a key only `acc` has keeps its
      value, and a key of `other` (whose keys are distinct) takes `other`'s. */
  function Update(acc: seq<Entry>, other: seq<Entry>): (r: seq<Entry>)
    ensures forall k :: k in Keys(r) <==> k in Keys(acc) || k in Keys(other)
    ensures forall k :: k !in Keys(other) ==> Lookup(r, k) == Lookup(acc, k)
    ensures UniqueKeys(other) ==> forall k :: k in Keys(other) ==> Lookup(r, k) == Lookup(other, k)
    decreases |other|
  {
    if other == [] then acc
    else
      var e := other[0];
      ConsFacts(e, other[1..]);
      assert [e] + other[1..] == other;
      assert UniqueKeys(other) ==> UniqueKeys(other[1..]) && e.key !in Keys(other[1..]);
      Update(Put(acc, e.key, e.val), other[1..])
  }

  /** Assigning a key that is not there appends it. */
  lemma {:induction false} PutNew(es: seq<Entry>, k: string, v: Value)
    requires k !in Keys(es)
    ensures Put(es, k, v) == es + [Entry(k, v)]
    decreases |es|
  {
    if es != [] {
      ConsFacts(es[0], es[1..]);
      assert [es[0]] + es[1..] == es;
      PutNew(es[1..], k, v);
      assert [es[0]] + (es[1..] + [Entry(k, v)]) == es + [Entry(k, v)];
    }
  }

  /** No key of `acc` is a key of `other`. */
  ghost predicate Disjoint(acc: seq<Entry>, other: seq<Entry>) {
    forall i, j :: 0 <= i < |acc| && 0 <= j < |other| ==> acc[i].key != other[j].key
  }

  lemma DisjointStep(acc: seq<Entry>, other: seq<Entry>)
    requires other != [] && UniqueKeys(other) && Disjoint(acc, other)
    ensures Disjoint(acc + [other[0]], other[1..])
    ensures UniqueKeys(other[1..])
    ensures forall i :: 0 <= i < |acc| ==> acc[i].key != other[0].key
  {
  }

  lemma ConsAppend(acc: seq<Entry>, other: seq<Entry>)
    requires other != []
    ensures (acc + [other[0]]) + other[1..] == acc + other
  {
  }

  /** Updating with a mapping whose keys are distinct from each other and
      from those already present appends its entries in order. */
  lemma {:induction false} UpdateFresh(acc: seq<Entry>, other: seq<Entry>)
    requires UniqueKeys(other)
    requires Disjoint(acc, other)
    ensures Update(acc, other) == acc + other
    decreases |other|
  {
    if other != [] {
      var e := other[0];
      DisjointStep(acc, other);
      PutNew(acc, e.key, e.val);
      var acc' := acc + [e];
      assert Put(acc, e.key, e.val) == acc';
      assert Update(acc, other) == Update(Put(acc, other[0].key, other[0].val), other[1..]);
      UpdateFresh(acc', other[1..]);
      ConsAppend(acc, other);
    }
  }

  /** Copying a dictionary into an empty one gives the same entries in the same order. */
  lemma UpdateFromEmpty(es: seq<Entry>)
    ensures UniqueKeys(es) ==> Update([], es) == es
  {
    if UniqueKeys(es) {
      assert Disjoint([], es);
      UpdateFresh([], es);
      assert [] + es == es;
    }
  }

  /** `dict.update` on an argument that is not a mapping iterates it as a
      sequence of key/value pairs: an empty string or list adds nothing, and
      anything else here is refused. */
  predicate EmptySequence(custom: Value) {
    custom == Str("") || custom == List([])
  }

  /** `obj = {}; obj.update(custom); return interpolate_strings(obj, registry)`. */
  function BuildFragment(registry: Vars, custom: Value): (r: Result<Value>)
    ensures custom.Mapping? && UniqueKeys(custom.entries) ==> r == Interpolate(custom, registry)
    ensures EmptySequence(custom) ==> r == Ok(Mapping([]))
    ensures !custom.Mapping? && !EmptySequence(custom) ==> r == Err(BadUpdate)
  {
    match custom
    case Mapping(es) =>
      UpdateFromEmpty(es);
      Interpolate(Mapping(Update([], es)), registry)
    case Str(s) =>
      if s == "" then Interpolate(Mapping([]), registry) else Err(BadUpdate)
    case List(xs) =>
      if xs == [] then Interpolate(Mapping([]), registry) else Err(BadUpdate)
    case _ => Err(BadUpdate)
  }

  /** What every builder promises: the result is exactly the interpolation
      of the customisation mapping, with its keys in its order; an empty
      customisation, an empty string or an empty list gives an empty
      mapping; anything else but a mapping is refused by `dict.update`. */
  predicate IsFragment(registry: Vars, custom: Value, r: Result<Value>) {
    && (custom.Mapping? && UniqueKeys(custom.entries) ==> r == Interpolate(custom, registry))
    && (custom.Mapping? && UniqueKeys(custom.entries) && r.Ok? ==>
          r.value.Mapping? && Keys(r.value.entries) == Keys(custom.entries))
    && (custom == Mapping([]) || EmptySequence(custom) ==> r == Ok(Mapping([])))
    && (!custom.Mapping? && !EmptySequence(custom) ==> r == Err(BadUpdate))
  }

  lemma BuildFragmentIsFragment(registry: Vars, custom: Value)
    ensures IsFragment(registry, custom, BuildFragment(registry, custom))
  {
    if custom == Mapping([]) {
      assert UniqueKeys(custom.entries);
    }
  }

  /** `create_docker_service(registry, custom)`. */
  function CreateDockerService(registry: Vars, custom: Value): (r: Result<Value>)
    ensures IsFragment(registry, custom, r)
  {
    BuildFragmentIsFragment(registry, custom);
    BuildFragment(registry, custom)
  }

  /** `create_traefik_router(registry, custom)`. */
  function CreateTraefikRouter(registry: Vars, custom: Value): (r: Result<Value>)
    ensures IsFragment(registry, custom, r)
  {
    BuildFragmentIsFragment(registry, custom);
    BuildFragment(registry, custom)
  }

  /** `create_traefik_service(registry, custom)`. */
  function CreateTraefikService(registry: Vars, custom: Value): (r: Result<Value>)
    ensures IsFragment(registry, custom, r)
  {
    BuildFragmentIsFragment(registry, custom);
    BuildFragment(registry, custom)
  }

  /** A customisation with a string anywhere in it whose placeholders
      include a variable the registry does not define cannot be built. */
  lemma UnboundPlaceholderFails(registry: Vars, custom: Value, s: string, n: string)
    requires custom.Mapping? && UniqueKeys(custom.entries)
    requires s in Leaves(custom) && Parse(s).Ok? && Field(n) in Parse(s).value
    requires n !in registry
    ensures BuildFragment(registry, custom) == Interpolate(custom, registry)
    ensures BuildFragment(registry, custom).Err?
  {
    FormatOkIff(s, registry);
    var ps := Parse(s).value;
    var i :| 0 <= i < |ps| && ps[i] == Field(n);
    assert !Bound(ps, registry);
    BadLeafFails(custom, s, registry);
  }
}

=== FILE: generate.dfy ===
/**
 The generator's main loop (generate.py lines 47-94): for each registry in
 order, the registry's own configuration file is derived from the base
 template with the next redis database slot, and its compose service,
 Traefik router and Traefik service are merged into the shared compose and
 Traefik documents; finally `redis.conf` declares as many databases as
 there were registries.

 The run stops at the first registry that raises, with that error: the
 model returns a `Result` instead of writing files as it goes.
 */
module Generate {
  import opened Errors
  import opened Values
  import opened Templates
  import opened Interpolation
  import opened Fragments
  import opened RegistryConfig

  /** The sections of the loaded configuration the loop works on
      (lines 28-33). */
  datatype Settings = Settings(
    registries: seq<Vars>,
    dockerBase: Value,
    dockerPerRegistry: Value,
    traefikBase: Value,
    traefikPerRegistry: Value,
    registryBase: Value)

  /** One `compose/<name>.yaml` file. */
  datatype RegistryFile = RegistryFile(name: string, config: Value)

  /** What the loop has built after some registries: the files written, the
      compose and Traefik documents, and the next redis slot. */
  datatype State = State(files: seq<RegistryFile>, docker: Value, traefik: Value, count: nat)

  /** The documents the generator hands to `yaml.dump` (the per-registry
      files, `compose.yaml` and `traefik.yaml`) and the text of `redis.conf`.
      The dump sorts mapping keys when it writes; these documents keep
      insertion order. */
  datatype Output = Output(files: seq<RegistryFile>, compose: Value, traefik: Value, redisConf: string)

  /** The registry's `name` is `n`. */
  predicate Named(registry: Vars, n: string) {
    "name" in registry && registry["name"] == n
  }

  /** Lines 56-57: a registry without `type` is a pull-through cache. */
  function WithDefaultType(registry: Vars): (r: Vars)
    ensures r.Keys == registry.Keys + {"type"}
    ensures r["type"] == if "type" in registry then registry["type"] else "cache"
    ensures forall k :: k in registry ==> r[k] == registry[k]
  {
    if "type" in registry then registry else registry["type" := "cache"]
  }

  /** Lines 71-72: the password is removed before the fragments are built. */
  function WithoutPassword(registry: Vars): (r: Vars)
    ensures r.Keys == registry.Keys - {"password"}
    ensures forall k :: k in r ==> r[k] == registry[k]
  {
    registry - {"password"}
  }

  /** The variables the compose and Traefik fragments are interpolated
      with. */
  function FragmentVars(registry: Vars): (r: Vars)
    ensures "password" !in r && "type" in r
  {
    WithoutPassword(WithDefaultType(registry))
  }

  /** The places one registry's fragments go, under its name. */
  function ServicePath(n: string): seq<string> { ["services", n] }
  function RouterPath(n: string): seq<string> { ["http", "routers", n] }
  function BackendPath(n: string): seq<string> { ["http", "services", n] }

  /** The three fragment builders of lines 79-81. */
  datatype Builder = DockerService | TraefikRouter | TraefikService

  function Build(b: Builder, vars: Vars, template: Value): Result<Value> {
    match b
    case DockerService => CreateDockerService(vars, template)
    case TraefikRouter => CreateTraefikRouter(vars, template)
    case TraefikService => CreateTraefikService(vars, template)
  }

  /** `doc[path] = build(vars, perRegistry[key])` (lines 79-81): the
      right-hand side is evaluated first, then the target's subscripts. On
      success `doc` holds at `path` the fragment built from the template
      and nothing else changes. */
  function Merge(doc: Value, path: seq<string>, vars: Vars, perRegistry: Value, key: string,
                 build: Builder): (r: Result<Value>)
    requires |path| > 0
    ensures r.Ok? ==> Select(perRegistry, key).Ok?
    ensures r.Ok? ==> At(r.value, path).Some?
    ensures r.Ok? ==> Build(build, vars, Select(perRegistry, key).value) == Ok(At(r.value, path).value)
    ensures r.Ok? ==> forall p :: Diverge(p, path) ==> At(r.value, p) == At(doc, p)
    ensures Select(perRegistry, key).Err? ==> r == Err(Select(perRegistry, key).error)
  {
    var template :- Select(perRegistry, key);
    var fragment :- Build(build, vars, template);
    SetAt(doc, path, fragment)
  }

  /** A merge succeeds exactly when the template exists, its fragment
      builds and the document can take it at `path`; it leaves the path
      writable for the next assignment. */
  lemma MergeOkIff(doc: Value, path: seq<string>, vars: Vars, perRegistry: Value, key: string, build: Builder)
    requires |path| > 0
    ensures var r := Merge(doc, path, vars, perRegistry, key, build);
      && (r.Ok? <==>
            && Select(perRegistry, key).Ok?
            && Build(build, vars, Select(perRegistry, key).value).Ok?
            && Writable(doc, path))
      && (r.Ok? ==>
            r.value == SetAt(doc, path, Build(build, vars, Select(perRegistry, key).value).value).value
            && Writable(r.value, path))
  {
  }

  /** The file one registry contributes (lines 61-62): named after the
      registry, holding `create_registry_config` of the base template, the
      typed registry and the slot, a document with the base template's
      top-level keys. */
  function FileOf(registry: Vars, settings: Settings, slot: nat): (r: Result<RegistryFile>)
    requires "name" in registry
    ensures r.Ok? ==> Named(registry, r.value.name)
    ensures r.Ok? ==>
              && settings.registryBase.Mapping? && r.value.config.Mapping?
              && Keys(r.value.config.entries) == Keys(settings.registryBase.entries)
  {
    var config :- CreateRegistryConfig(settings.registryBase, WithDefaultType(registry), slot);
    Ok(RegistryFile(registry["name"], config))
  }

  /** The compose and Traefik documents. */
  datatype Documents = Documents(docker: Value, traefik: Value)

  /** The fragments built for one registry: its compose service, Traefik
      router and Traefik service, each from the per-registry template
      interpolated with the registry's variables. */
  predicate Built(vars: Vars, settings: Settings, service: Value, router: Value, backend: Value) {
    && Select(settings.dockerPerRegistry, "compose").Ok?
    && CreateDockerService(vars, Select(settings.dockerPerRegistry, "compose").value) == Ok(service)
    && Select(settings.traefikPerRegistry, "router").Ok?
    && CreateTraefikRouter(vars, Select(settings.traefikPerRegistry, "router").value) == Ok(router)
    && Select(settings.traefikPerRegistry, "service").Ok?
    && CreateTraefikService(vars, Select(settings.traefikPerRegistry, "service").value) == Ok(backend)
  }

  /** Lines 79-81: the registry's service, router and Traefik service are
      merged under its name, in that order; nothing else changes. */
  function Contribute(docs: Documents, name: string, vars: Vars, settings: Settings): (r: Result<Documents>)
    ensures r.Ok? ==>
              && At(r.value.docker, ServicePath(name)).Some?
              && At(r.value.traefik, RouterPath(name)).Some?
              && At(r.value.traefik, BackendPath(name)).Some?
              && Built(vars, settings,
                       At(r.value.docker, ServicePath(name)).value,
                       At(r.value.traefik, RouterPath(name)).value,
                       At(r.value.traefik, BackendPath(name)).value)
    ensures r.Ok? ==> forall p :: Diverge(p, ServicePath(name)) ==> At(r.value.docker, p) == At(docs.docker, p)
    ensures r.Ok? ==> forall p :: Diverge(p, RouterPath(name)) && Diverge(p, BackendPath(name)) ==>
                        At(r.value.traefik, p) == At(docs.traefik, p)
  {
    assert Diverge(RouterPath(name), BackendPath(name)) by {
      assert RouterPath(name)[1..] == ["routers", name];
      assert BackendPath(name)[1..] == ["services", name];
    }
    var docker :- Merge(docs.docker, ServicePath(name), vars, settings.dockerPerRegistry, "compose", DockerService);
    var traefik :- Merge(docs.traefik, RouterPath(name), vars, settings.traefikPerRegistry, "router", TraefikRouter);
    var traefik' :- Merge(traefik, BackendPath(name), vars, settings.traefikPerRegistry, "service", TraefikService);
    Ok(Documents(docker, traefik'))
  }

  /** One iteration of the loop body (lines 51-88). */
  function RegistryStep(s: State, registry: Vars, settings: Settings): (r: Result<State>)
    ensures "name" !in registry ==> r == Err(MissingKey("name"))
    ensures r.Ok? ==> "name" in registry
    ensures r.Ok? ==> |r.value.files| == |s.files| + 1 && r.value.count == s.count + 1
    ensures r.Ok? ==> FileOf(registry, settings, s.count).Ok? && r.value.files == s.files + [FileOf(registry, settings, s.count).value]
  {
    var name :- Item(registry, "name");
    var file :- FileOf(registry, settings, s.count);
    var docs :- Contribute(Documents(s.docker, s.traefik), name, FragmentVars(registry), settings);
    Ok(State(s.files + [file], docs.docker, docs.traefik, s.count + 1))
  }

  /** The loop over `registries`, in order, stopping at the first error. */
  function Run(s: State, regs: seq<Vars>, settings: Settings): (r: Result<State>)
    ensures r.Ok? ==> r.value.count == s.count + |regs|
    ensures r.Ok? ==> |r.value.files| == |s.files| + |regs|
    decreases |regs|
  {
    if regs == [] then Ok(s)
    else
      var next :- RegistryStep(s, regs[0], settings);
      Run(next, regs[1..], settings)
  }

  /** The state before the first registry (lines 29, 31 and 47). */
  function Initial(settings: Settings): State {
    State([], settings.dockerBase, settings.traefikBase, 0)
  }

  /** The whole generation: one file per registry, and `redis.conf` with as
      many databases as registries (line 94). */
  function GenerateAll(settings: Settings): (r: Result<Output>)
    ensures r.Ok? ==> |r.value.files| == |settings.registries|
    ensures r.Ok? ==> r.value.redisConf == "databases " + Decimal(|settings.registries|)
  {
    var final :- Run(Initial(settings), settings.registries, settings);
    Ok(Output(final.files, final.docker, final.traefik, "databases " + Decimal(final.count)))
  }

  /** Decimal digit `d`. */
  function DigitChar(d: nat): (c: char)
    requires d < 10
    ensures IsDigit(c) && c as int - '0' as int == d
  {
    "0123456789"[d]
  }

  /** Python's `str(n)` for a non-negative integer: decimal digits, with no
      leading zero except for zero itself. */
  function Decimal(n: nat): (s: string)
    ensures |s| > 0
    ensures forall i :: 0 <= i < |s| ==> IsDigit(s[i])
    ensures s[0] == '0' <==> n == 0
    ensures n == 0 ==> s == "0"
    decreases n
  {
    if n < 10 then [DigitChar(n)] else Decimal(n / 10) + [DigitChar(n % 10)]
  }

  /** The number a string of decimal digits denotes. */
  function DigitsValue(s: string): nat
    requires forall i :: 0 <= i < |s| ==> IsDigit(s[i])
  {
    if s == [] then 0
    else
      assert IsDigit(s[|s| - 1]);
      DigitsValue(s[..|s| - 1]) * 10 + (s[|s| - 1] as int - '0' as int)
  }

  /** `Decimal` denotes the number it renders. */
  lemma {:induction false} DecimalRoundTrip(n: nat)
    ensures DigitsValue(Decimal(n)) == n
    decreases n
  {
    if n >= 10 {
      var s := Decimal(n);
      assert s[..|s| - 1] == Decimal(n / 10);
      DecimalRoundTrip(n / 10);
    }
  }

  /** Running over a concatenation is running over each part in turn. */
  lemma {:induction false} RunAppend(s: State, a: seq<Vars>, b: seq<Vars>, settings: Settings)
    ensures Run(s, a + b, settings)
         == match Run(s, a, settings)
            case Ok(t) => Run(t, b, settings)
            case Err(e) => Err(e)
    decreases |a|
  {
    if a != [] {
      assert (a + b)[0] == a[0];
      assert (a + b)[1..] == a[1..] + b;
      match RegistryStep(s, a[0], settings)
      case Ok(next) =>
        RunAppend(next, a[1..], b, settings);
      case Err(_) =>
    } else {
      assert a + b == b;
    }
  }

  /** The first registry that fails decides the outcome: the run ends with
      its error, whatever the registries after it hold. */
  lemma FailFast(settings: Settings, k: nat)
    requires k <= |settings.registries|
    requires Run(Initial(settings), settings.registries[..k], settings).Err?
    ensures GenerateAll(settings) == Err(Run(Initial(settings), settings.registries[..k], settings).error)
  {
    var regs := settings.registries;
    assert regs == regs[..k] + regs[k..];
    RunAppend(Initial(settings), regs[..k], regs[k..], settings);
  }

  /** The file a step appends. */
  lemma StepFile(s: State, registry: Vars, settings: Settings)
    requires RegistryStep(s, registry, settings).Ok?
    ensures "name" in registry
    ensures FileOf(registry, settings, s.count) == Ok(RegistryStep(s, registry, settings).value.files[|s.files|])
    ensures forall i :: 0 <= i < |s.files| ==> RegistryStep(s, registry, settings).value.files[i] == s.files[i]
  {
  }

  /** A run keeps the files already written. */
  lemma {:induction false} RunKeepsFile(t: State, regs: seq<Vars>, settings: Settings, i: nat)
    requires Run(t, regs, settings).Ok?
    requires i < |t.files|
    ensures Run(t, regs, settings).value.files[i] == t.files[i]
    decreases |regs|
  {
    if regs != [] {
      RunHead(t, regs, settings);
      var next := RegistryStep(t, regs[0], settings).value;
      StepFile(t, regs[0], settings);
      RunKeepsFile(next, regs[1..], settings, i);
    }
  }

  /** Running over a list is running up to position `k`, then from it. */
  lemma RunSplitAt(s: State, regs: seq<Vars>, settings: Settings, k: nat)
    requires k <= |regs|
    ensures Run(s, regs, settings)
         == match Run(s, regs[..k], settings)
            case Ok(t) => Run(t, regs[k..], settings)
            case Err(e) => Err(e)
  {
    assert regs == regs[..k] + regs[k..];
    RunAppend(s, regs[..k], regs[k..], settings);
  }

  /** A run over a non-empty list is its first step, then the rest. */
  lemma RunHead(s: State, regs: seq<Vars>, settings: Settings)
    requires regs != []
    ensures Run(s, regs, settings)
         == match RegistryStep(s, regs[0], settings)
            case Ok(t) => Run(t, regs[1..], settings)
            case Err(e) => Err(e)
  {
  }

  /** A successful generation seen around its `k`-th registry: the run
      over the registries before it, the step for it, and the run over the
      ones after it. */
  lemma Split(settings: Settings, k: nat)
    requires GenerateAll(settings).Ok?
    requires k < |settings.registries|
    ensures Run(Initial(settings), settings.registries[..k], settings).Ok?
    ensures var before := Run(Initial(settings), settings.registries[..k], settings).value;
      && before.count == k && |before.files| == k
      && RegistryStep(before, settings.registries[k], settings).Ok?
      && Run(Initial(settings), settings.registries, settings)
         == Run(RegistryStep(before, settings.registries[k], settings).value, settings.registries[k + 1..], settings)
  {
    var regs := settings.registries;
    RunSplitAt(Initial(settings), regs, settings, k);
    var before := Run(Initial(settings), regs[..k], settings).value;
    var tail := regs[k..];
    RunHead(before, tail, settings);
    assert tail[0] == regs[k] && tail[1..] == regs[k + 1..];
  }

  /** The files of a successful generation, one per registry in order:
      `create_registry_config` of a fresh copy of the base template, with
      the registry (typed) and its position as the slot. */
  lemma FileOfRegistry(settings: Settings, k: nat)
    requires GenerateAll(settings).Ok?
    requires k < |settings.registries|
    ensures var f := GenerateAll(settings).value.files[k];
      && Named(settings.registries[k], f.name)
      && CreateRegistryConfig(settings.registryBase, WithDefaultType(settings.registries[k]), k) == Ok(f.config)
  {
    var regs := settings.registries;
    Split(settings, k);
    var before := Run(Initial(settings), regs[..k], settings).value;
    var after := RegistryStep(before, regs[k], settings).value;
    StepFile(before, regs[k], settings);
    RunKeepsFile(after, regs[k + 1..], settings, k);
  }

  /** A step writes the registry's three fragments under its name and
      changes nothing else in the compose and Traefik documents. */
  lemma StepWrites(s: State, registry: Vars, settings: Settings)
    requires RegistryStep(s, registry, settings).Ok?
    ensures var t := RegistryStep(s, registry, settings).value;
      && "name" in registry
      && At(t.docker, ServicePath(registry["name"])).Some?
      && At(t.traefik, RouterPath(registry["name"])).Some?
      && At(t.traefik, BackendPath(registry["name"])).Some?
      && Built(FragmentVars(registry), settings,
                     At(t.docker, ServicePath(registry["name"])).value,
                     At(t.traefik, RouterPath(registry["name"])).value,
                     At(t.traefik, BackendPath(registry["name"])).value)
    ensures var t := RegistryStep(s, registry, settings).value;
      && (forall p :: Diverge(p, ServicePath(registry["name"])) ==> At(t.docker, p) == At(s.docker, p))
      && (forall p :: Diverge(p, RouterPath(registry["name"])) && Diverge(p, BackendPath(registry["name"])) ==>
            At(t.traefik, p) == At(s.traefik, p))
  {
  }

  /** Paths under the same section with different names never overlap. */
  lemma NamesDiverge(n: string, m: string)
    requires n != m
    ensures Diverge(ServicePath(n), ServicePath(m))
    ensures Diverge(RouterPath(n), RouterPath(m)) && Diverge(RouterPath(n), BackendPath(m))
    ensures Diverge(BackendPath(n), RouterPath(m)) && Diverge(BackendPath(n), BackendPath(m))
  {
    assert ServicePath(n)[1..] == [n] && ServicePath(m)[1..] == [m];
    assert RouterPath(n)[1..] == ["routers", n] && RouterPath(m)[1..] == ["routers", m];
    assert BackendPath(n)[1..] == ["services", n] && BackendPath(m)[1..] == ["services", m];
    assert ["routers", n][1..] == [n] && ["routers", m][1..] == [m];
    assert ["services", n][1..] == [n] && ["services", m][1..] == [m];
  }

  /** Registries with other names leave a name's fragments alone. */
  lemma {:induction false} OtherNamesKeep(s: State, regs: seq<Vars>, settings: Settings, n: string)
    requires Run(s, regs, settings).Ok?
    requires forall j :: 0 <= j < |regs| ==> !Named(regs[j], n)
    ensures var t := Run(s, regs, settings).value;
      && At(t.docker, ServicePath(n)) == At(s.docker, ServicePath(n))
      && At(t.traefik, RouterPath(n)) == At(s.traefik, RouterPath(n))
      && At(t.traefik, BackendPath(n)) == At(s.traefik, BackendPath(n))
    decreases |regs|
  {
    if regs != [] {
      RunHead(s, regs, settings);
      var next := RegistryStep(s, regs[0], settings).value;
      StepKeepsOtherName(s, regs[0], settings, n);
      OtherNamesKeep(next, regs[1..], settings, n);
    }
  }

  /** A step for a registry with another name leaves a name's fragments alone. */
  lemma StepKeepsOtherName(s: State, registry: Vars, settings: Settings, n: string)
    requires RegistryStep(s, registry, settings).Ok?
    requires !Named(registry, n)
    ensures var t := RegistryStep(s, registry, settings).value;
      && At(t.docker, ServicePath(n)) == At(s.docker, ServicePath(n))
      && At(t.traefik, RouterPath(n)) == At(s.traefik, RouterPath(n))
      && At(t.traefik, BackendPath(n)) == At(s.traefik, BackendPath(n))
  {
    StepWrites(s, registry, settings);
    NamesDiverge(n, registry["name"]);
  }

  /** After the `k`-th registry's step, no later registry touches the
      fragments of a name none of them has. */
  lemma LaterRegistriesKeep(settings: Settings, k: nat, n: string)
    requires GenerateAll(settings).Ok?
    requires k < |settings.registries|
    requires forall j :: k < j < |settings.registries| ==> !Named(settings.registries[j], n)
    ensures Run(Initial(settings), settings.registries[..k], settings).Ok?
    ensures var before := Run(Initial(settings), settings.registries[..k], settings).value;
      && RegistryStep(before, settings.registries[k], settings).Ok?
      && var after := RegistryStep(before, settings.registries[k], settings).value;
         var out := GenerateAll(settings).value;
         && At(out.compose, ServicePath(n)) == At(after.docker, ServicePath(n))
         && At(out.traefik, RouterPath(n)) == At(after.traefik, RouterPath(n))
         && At(out.traefik, BackendPath(n)) == At(after.traefik, BackendPath(n))
  {
    var regs := settings.registries;
    Split(settings, k);
    var before := Run(Initial(settings), regs[..k], settings).value;
    var after := RegistryStep(before, regs[k], settings).value;
    var rest := regs[k + 1..];
    assert forall j :: 0 <= j < |rest| ==> rest[j] == regs[k + 1 + j];
    OtherNamesKeep(after, rest, settings, n);
  }

  /** Each registry's fragments are in the generated compose and Traefik
      documents under its name, unless a later registry has the same name
      (the later one wins). */
  lemma FragmentsOfRegistry(settings: Settings, k: nat, n: string)
    requires GenerateAll(settings).Ok?
    requires k < |settings.registries| && Named(settings.registries[k], n)
    requires forall j :: k < j < |settings.registries| ==> !Named(settings.registries[j], n)
    ensures var out := GenerateAll(settings).value;
      && At(out.compose, ServicePath(n)).Some?
      && At(out.traefik, RouterPath(n)).Some?
      && At(out.traefik, BackendPath(n)).Some?
      && Built(FragmentVars(settings.registries[k]), settings,
               At(out.compose, ServicePath(n)).value,
               At(out.traefik, RouterPath(n)).value,
               At(out.traefik, BackendPath(n)).value)
  {
    LaterRegistriesKeep(settings, k, n);
    var before := Run(Initial(settings), settings.registries[..k], settings).value;
    StepWrites(before, settings.registries[k], settings);
  }

  /** The per-registry template each builder reads (lines 79-81). */
  function TemplateOf(settings: Settings, b: Builder): Result<Value> {
    match b
    case DockerService => Select(settings.dockerPerRegistry, "compose")
    case TraefikRouter => Select(settings.traefikPerRegistry, "router")
    case TraefikService => Select(settings.traefikPerRegistry, "service")
  }

  /** The builder's template exists and its fragment builds with `vars`. */
  predicate Buildable(settings: Settings, vars: Vars, b: Builder) {
    TemplateOf(settings, b).Ok? && Build(b, vars, TemplateOf(settings, b).value).Ok?
  }

  /** The compose document has a `services` mapping, and the Traefik
      document has `http.routers` and `http.services` mappings. */
  predicate DocsReady(docs: Documents) {
    && At(docs.docker, ["services"]).Some? && At(docs.docker, ["services"]).value.Mapping?
    && At(docs.traefik, ["http", "routers"]).Some? && At(docs.traefik, ["http", "routers"]).value.Mapping?
    && At(docs.traefik, ["http", "services"]).Some? && At(docs.traefik, ["http", "services"]).value.Mapping?
  }

  /** What one registry needs for its step to succeed, whatever the
      documents hold: a name, a configuration that builds with its slot, and
      three fragments that build. */
  predicate RegistryBuilds(registry: Vars, settings: Settings, slot: nat) {
    && "name" in registry
    && CreateRegistryConfig(settings.registryBase, WithDefaultType(registry), slot).Ok?
    && Buildable(settings, FragmentVars(registry), DockerService)
    && Buildable(settings, FragmentVars(registry), TraefikRouter)
    && Buildable(settings, FragmentVars(registry), TraefikService)
  }

  /** Ready documents are exactly those where every name's three
      assignments of lines 79-81 can be made. */
  lemma ReadyWritable(docs: Documents, n: string)
    ensures DocsReady(docs) <==>
              && Writable(docs.docker, ServicePath(n))
              && Writable(docs.traefik, RouterPath(n))
              && Writable(docs.traefik, BackendPath(n))
  {
    ServiceWritable(docs.docker, n);
    HttpWritable(docs.traefik, "routers", n);
    HttpWritable(docs.traefik, "services", n);
  }

  /** A compose service can be written under `services` exactly when that
      is a mapping. */
  lemma ServiceWritable(d: Value, n: string)
    ensures Writable(d, ServicePath(n)) <==> At(d, ["services"]).Some? && At(d, ["services"]).value.Mapping?
  {
    assert ServicePath(n)[..0] == [] && ServicePath(n)[..1] == ["services"];
  }

  /** A Traefik entry can be written under `http.k` exactly when that is a
      mapping. */
  lemma HttpWritable(t: Value, k: string, n: string)
    ensures Writable(t, ["http", k, n]) <==> At(t, ["http", k]).Some? && At(t, ["http", k]).value.Mapping?
  {
    var path := ["http", k, n];
    assert path[..0] == [] && path[..1] == ["http"] && path[..2] == ["http", k];
    HttpSection(t, k);
  }

  /** Reaching `http.k` passes through an `http` mapping. */
  lemma HttpSection(t: Value, k: string)
    ensures At(t, ["http", k]).Some? ==>
              && t.Mapping?
              && At(t, ["http"]).Some? && At(t, ["http"]).value.Mapping?
  {
    if At(t, ["http", k]).Some? {
      assert ["http", k][1..] == [k];
      var c := Lookup(t.entries, "http").value;
      assert At(t, ["http", k]) == At(c, [k]);
      assert At(t, ["http"]) == At(c, []);
    }
  }

  /** The router and the Traefik service of one name never overlap. */
  lemma SectionsDiverge(n: string)
    ensures Diverge(RouterPath(n), BackendPath(n)) && Diverge(BackendPath(n), RouterPath(n))
  {
    assert RouterPath(n)[1..] == ["routers", n];
    assert BackendPath(n)[1..] == ["services", n];
  }

  /** A registry's contribution succeeds exactly when its three templates
      exist and build, and the documents can take them under its name. */
  lemma ContributeOkIff(docs: Documents, name: string, vars: Vars, settings: Settings)
    ensures Contribute(docs, name, vars, settings).Ok? <==>
              && Buildable(settings, vars, DockerService) && Writable(docs.docker, ServicePath(name))
              && Buildable(settings, vars, TraefikRouter) && Writable(docs.traefik, RouterPath(name))
              && Buildable(settings, vars, TraefikService) && Writable(docs.traefik, BackendPath(name))
  {
    ContributeStages(docs, name, vars, settings);
    MergeOkIff(docs.docker, ServicePath(name), vars, settings.dockerPerRegistry, "compose", DockerService);
    TraefikMergesOkIff(docs.traefik, name, vars, settings);
  }

  /** The router and then the Traefik service merge exactly when both
      build and the Traefik document can take both. */
  lemma TraefikMergesOkIff(traefik: Value, name: string, vars: Vars, settings: Settings)
    ensures var router := Merge(traefik, RouterPath(name), vars, settings.traefikPerRegistry, "router", TraefikRouter);
      (router.Ok? && Merge(router.value, BackendPath(name), vars, settings.traefikPerRegistry, "service", TraefikService).Ok?) <==>
        && Buildable(settings, vars, TraefikRouter) && Writable(traefik, RouterPath(name))
        && Buildable(settings, vars, TraefikService) && Writable(traefik, BackendPath(name))
  {
    var router := Merge(traefik, RouterPath(name), vars, settings.traefikPerRegistry, "router", TraefikRouter);
    MergeOkIff(traefik, RouterPath(name), vars, settings.traefikPerRegistry, "router", TraefikRouter);
    if router.Ok? {
      SectionsDiverge(name);
      var fragment := Build(TraefikRouter, vars, TemplateOf(settings, TraefikRouter).value).value;
      WritableKept(traefik, RouterPath(name), fragment, BackendPath(name));
      MergeOkIff(router.value, BackendPath(name), vars, settings.traefikPerRegistry, "service", TraefikService);
    }
  }

  /** A contribution succeeds exactly when its three merges do, in order. */
  lemma ContributeStages(docs: Documents, name: string, vars: Vars, settings: Settings)
    ensures var router := Merge(docs.traefik, RouterPath(name), vars, settings.traefikPerRegistry, "router", TraefikRouter);
      Contribute(docs, name, vars, settings).Ok? <==>
        && Merge(docs.docker, ServicePath(name), vars, settings.dockerPerRegistry, "compose", DockerService).Ok?
        && router.Ok?
        && Merge(router.value, BackendPath(name), vars, settings.traefikPerRegistry, "service", TraefikService).Ok?
  {
  }

  /** After a successful contribution the documents are ready for the next
      registry. */
  lemma ContributeKeepsReady(docs: Documents, name: string, vars: Vars, settings: Settings)
    requires Contribute(docs, name, vars, settings).Ok?
    ensures DocsReady(Contribute(docs, name, vars, settings).value)
  {
    var r := Contribute(docs, name, vars, settings).value;
    var router := Merge(docs.traefik, RouterPath(name), vars, settings.traefikPerRegistry, "router", TraefikRouter).value;
    MergeOkIff(docs.docker, ServicePath(name), vars, settings.dockerPerRegistry, "compose", DockerService);
    TraefikMergesKeepWritable(docs.traefik, name, vars, settings);
    ReadyWritable(r, name);
  }

  /** After the router and the Traefik service are merged, both paths can
      be written again. */
  lemma TraefikMergesKeepWritable(traefik: Value, name: string, vars: Vars, settings: Settings)
    requires Merge(traefik, RouterPath(name), vars, settings.traefikPerRegistry, "router", TraefikRouter).Ok?
    requires var router := Merge(traefik, RouterPath(name), vars, settings.traefikPerRegistry, "router", TraefikRouter).value;
      Merge(router, BackendPath(name), vars, settings.traefikPerRegistry, "service", TraefikService).Ok?
    ensures var router := Merge(traefik, RouterPath(name), vars, settings.traefikPerRegistry, "router", TraefikRouter).value;
      var t := Merge(router, BackendPath(name), vars, settings.traefikPerRegistry, "service", TraefikService).value;
      Writable(t, RouterPath(name)) && Writable(t, BackendPath(name))
  {
    var router := Merge(traefik, RouterPath(name), vars, settings.traefikPerRegistry, "router", TraefikRouter).value;
    var backend := Build(TraefikService, vars, TemplateOf(settings, TraefikService).value).value;
    MergeOkIff(traefik, RouterPath(name), vars, settings.traefikPerRegistry, "router", TraefikRouter);
    MergeOkIff(router, BackendPath(name), vars, settings.traefikPerRegistry, "service", TraefikService);
    SectionsDiverge(name);
    WritableKept(router, BackendPath(name), backend, RouterPath(name));
  }

  /** A registry's step succeeds exactly when the documents are ready and
      the registry builds with the current slot. */
  lemma StepOkIff(s: State, registry: Vars, settings: Settings)
    ensures RegistryStep(s, registry, settings).Ok? <==>
              DocsReady(Documents(s.docker, s.traefik)) && RegistryBuilds(registry, settings, s.count)
  {
    if "name" in registry {
      ContributeOkIff(Documents(s.docker, s.traefik), registry["name"], FragmentVars(registry), settings);
      ReadyWritable(Documents(s.docker, s.traefik), registry["name"]);
    }
  }

  /** After a successful step the documents are still ready. */
  lemma StepKeepsReady(s: State, registry: Vars, settings: Settings)
    requires RegistryStep(s, registry, settings).Ok?
    ensures var t := RegistryStep(s, registry, settings).value;
      DocsReady(Documents(t.docker, t.traefik))
  {
    ContributeKeepsReady(Documents(s.docker, s.traefik), registry["name"], FragmentVars(registry), settings);
  }

  /** `p` holds of every element of `xs`, the `j`-th taken with position
      `c + j`. */
  predicate EachAt<T>(p: (T, nat) -> bool, xs: seq<T>, c: nat) {
    forall j :: 0 <= j < |xs| ==> p(xs[j], c + j)
  }

  /** `EachAt` splits into its first element and the rest. */
  lemma EachAtCons<T>(p: (T, nat) -> bool, xs: seq<T>, c: nat)
    requires xs != []
    ensures EachAt(p, xs, c) <==> p(xs[0], c) && EachAt(p, xs[1..], c + 1)
  {
    if p(xs[0], c) && EachAt(p, xs[1..], c + 1) {
      forall j | 0 <= j < |xs|
        ensures p(xs[j], c + j)
      {
        if j > 0 {
          assert xs[1..][j - 1] == xs[j];
        }
      }
    }
    if EachAt(p, xs, c) {
      forall j | 0 <= j < |xs[1..]|
        ensures p(xs[1..][j], c + 1 + j)
      {
        assert xs[1..][j] == xs[j + 1];
      }
    }
  }

  /** `RegistryBuilds` for one set of settings, as a predicate on a
      registry and its slot. */
  function BuildsWith(settings: Settings): (r: (Vars, nat) -> bool)
    ensures forall registry, slot :: r(registry, slot) == RegistryBuilds(registry, settings, slot)
  {
    (registry: Vars, slot: nat) => RegistryBuilds(registry, settings, slot)
  }

  /** A loop over `xs` whose body `step` can fail, stopping at the first
      error. */
  function Fold<S, T>(step: (S, T) -> Result<S>, s: S, xs: seq<T>): Result<S>
    decreases |xs|
  {
    if xs == [] then Ok(s)
    else
      var next :- step(s, xs[0]);
      Fold(step, next, xs[1..])
  }

  /** A loop whose step succeeds exactly on a ready state and an element
      that is fine at the state's count, and keeps the state ready while
      counting up, succeeds exactly when the state starts ready (if there
      is any element) and every element is fine at its own count. */
  lemma {:induction false} FoldOkIff<S, T>(step: (S, T) -> Result<S>, ready: S -> bool, fine: (T, nat) -> bool,
                                           count: S -> nat, s: S, xs: seq<T>)
    requires forall t, x :: step(t, x).Ok? <==> ready(t) && fine(x, count(t))
    requires forall t, x :: step(t, x).Ok? ==> ready(step(t, x).value) && count(step(t, x).value) == count(t) + 1
    ensures Fold(step, s, xs).Ok? <==> (xs != [] ==> ready(s)) && EachAt(fine, xs, count(s))
    decreases |xs|
  {
    if xs != [] {
      EachAtCons(fine, xs, count(s));
      if step(s, xs[0]).Ok? {
        FoldOkIff(step, ready, fine, count, step(s, xs[0]).value, xs[1..]);
      }
    }
  }

  /** The loop body for one set of settings. */
  function StepWith(settings: Settings): (r: (State, Vars) -> Result<State>)
    ensures forall s, registry :: r(s, registry) == RegistryStep(s, registry, settings)
  {
    (s: State, registry: Vars) => RegistryStep(s, registry, settings)
  }

  /** The loop of lines 47-88 is the fold of its body. */
  lemma {:induction false} RunIsFold(s: State, regs: seq<Vars>, settings: Settings)
    ensures Run(s, regs, settings) == Fold(StepWith(settings), s, regs)
    decreases |regs|
  {
    if regs != [] {
      RunHead(s, regs, settings);
      if RegistryStep(s, regs[0], settings).Ok? {
        RunIsFold(RegistryStep(s, regs[0], settings).value, regs[1..], settings);
      }
    }
  }

  /** The loop succeeds exactly when, if there is any registry, the
      documents start out ready, and every registry builds on its own with
      its slot, counted on from the state's. */
  lemma RunOkIff(s: State, regs: seq<Vars>, settings: Settings)
    ensures Run(s, regs, settings).Ok? <==>
              && (regs != [] ==> DocsReady(Documents(s.docker, s.traefik)))
              && EachAt(BuildsWith(settings), regs, s.count)
  {
    var step := StepWith(settings);
    var ready := (t: State) => DocsReady(Documents(t.docker, t.traefik));
    var count := (t: State) => t.count;
    forall t: State, x: Vars
      ensures step(t, x).Ok? <==> ready(t) && BuildsWith(settings)(x, count(t))
    {
      StepOkIff(t, x, settings);
    }
    forall t: State, x: Vars | step(t, x).Ok?
      ensures ready(step(t, x).value) && count(step(t, x).value) == count(t) + 1
    {
      StepKeepsReady(t, x, settings);
    }
    RunIsFold(s, regs, settings);
    FoldOkIff(step, ready, BuildsWith(settings), count, s, regs);
  }

  /** The generation succeeds exactly when, if there is any registry, the
      base compose and Traefik documents have the sections the fragments go
      into, and every registry builds on its own, the `k`-th with slot `k`. */
  lemma GenerateOkIff(settings: Settings)
    ensures GenerateAll(settings).Ok? <==>
              && (settings.registries != [] ==> DocsReady(Documents(settings.dockerBase, settings.traefikBase)))
              && forall k :: 0 <= k < |settings.registries| ==> RegistryBuilds(settings.registries[k], settings, k)
  {
    RunOkIff(Initial(settings), settings.registries, settings);
    var regs := settings.registries;
    if EachAt(BuildsWith(settings), regs, 0) {
      forall k | 0 <= k < |regs|
        ensures RegistryBuilds(regs[k], settings, k)
      {
        assert BuildsWith(settings)(regs[k], 0 + k);
      }
    }
  }

  /** The password is removed before the fragments are interpolated: a
      per-registry template (compose service, router or Traefik service)
      with a string anywhere in it that uses `{password}` fails the
      generation of any non-empty registry list. */
  lemma PasswordNeverInterpolated(settings: Settings, b: Builder, s: string)
    requires |settings.registries| > 0
    requires TemplateOf(settings, b).Ok?
    requires TemplateOf(settings, b).value.Mapping? && UniqueKeys(TemplateOf(settings, b).value.entries)
    requires s in Leaves(TemplateOf(settings, b).value)
    requires Parse(s).Ok? && Field("password") in Parse(s).value
    ensures GenerateAll(settings).Err?
  {
    var t := TemplateOf(settings, b).value;
    var vars := FragmentVars(settings.registries[0]);
    UnboundPlaceholderFails(vars, t, s, "password");
    assert Build(b, vars, t) == BuildFragment(vars, t);
    assert !RegistryBuilds(settings.registries[0], settings, 0);
    GenerateOkIff(settings);
  }

  /** A one-registry configuration: the test suite's cache registry, the
      base template with empty `proxy` and `redis` sections, empty
      per-registry templates, and base documents with empty `services`,
      `http.routers` and `http.services` sections. */
  function ExampleSettings(): Settings {
    Settings(
      [ExampleRegistry()],
      Mapping([Entry("services", Mapping([]))]),
      Mapping([Entry("compose", Mapping([]))]),
      Mapping([Entry("http", Mapping([Entry("routers", Mapping([])), Entry("services", Mapping([]))]))]),
      Mapping([Entry("router", Mapping([])), Entry("service", Mapping([]))]),
      ExampleBase())
  }

  /** The one-registry configuration generates: one file, named after the
      registry, and `redis.conf` declaring one database. */
  lemma GenerateExample()
    ensures var r := GenerateAll(ExampleSettings());
      && r.Ok?
      && |r.value.files| == 1
      && r.value.files[0].name == "example"
      && r.value.redisConf == "databases 1"
  {
    ExampleDocsReady();
    ExampleBuilds();
    OneRegistryGenerates(ExampleSettings());
  }

  /** One registry that builds, over documents that are ready, generates
      one file named after it and `redis.conf` declaring one database. */
  lemma OneRegistryGenerates(settings: Settings)
    requires |settings.registries| == 1
    requires DocsReady(Documents(settings.dockerBase, settings.traefikBase))
    requires RegistryBuilds(settings.registries[0], settings, 0)
    ensures var r := GenerateAll(settings);
      && r.Ok?
      && |r.value.files| == 1
      && Named(settings.registries[0], r.value.files[0].name)
      && r.value.redisConf == "databases 1"
  {
    OneRegistryOk(settings);
    FileOfRegistry(settings, 0);
    assert Decimal(1) == "1";
  }

  /** One registry that builds, over documents that are ready, generates. */
  lemma OneRegistryOk(settings: Settings)
    requires |settings.registries| == 1
    requires DocsReady(Documents(settings.dockerBase, settings.traefikBase))
    requires RegistryBuilds(settings.registries[0], settings, 0)
    ensures GenerateAll(settings).Ok?
  {
    forall k | 0 <= k < |settings.registries|
      ensures RegistryBuilds(settings.registries[k], settings, k)
    {
      assert k == 0;
    }
    GenerateOkIff(settings);
  }

  /** The example's base documents have the sections fragments go into. */
  lemma ExampleDocsReady()
    ensures DocsReady(Documents(ExampleSettings().dockerBase, ExampleSettings().traefikBase))
  {
    var http := Mapping([Entry("routers", Mapping([])), Entry("services", Mapping([]))]);
    assert ["services"][1..] == [] && ["http", "routers"][1..] == ["routers"] && ["http", "services"][1..] == ["services"];
    assert ["routers"][1..] == [] && ["services"][1..] == [];
    assert Lookup(http.entries, "services") == Some(Mapping([])) by {
      assert "routers" != "services";
    }
  }

  /** The example's registry builds with slot 0. */
  lemma ExampleBuilds()
    ensures RegistryBuilds(ExampleRegistry(), ExampleSettings(), 0)
  {
    CacheRegistryBuilds(0);
    assert "type" in ExampleRegistry() && "name" in ExampleRegistry();
    TypedBuilds(ExampleRegistry(), ExampleSettings(), 0);
  }

  /** A typed, named registry whose configuration builds builds when the
      per-registry templates are empty. */
  lemma TypedBuilds(registry: Vars, settings: Settings, slot: nat)
    requires "type" in registry && "name" in registry
    requires CreateRegistryConfig(settings.registryBase, registry, slot).Ok?
    requires settings.dockerPerRegistry == Mapping([Entry("compose", Mapping([]))])
    requires settings.traefikPerRegistry == Mapping([Entry("router", Mapping([])), Entry("service", Mapping([]))])
    ensures RegistryBuilds(registry, settings, slot)
  {
    assert WithDefaultType(registry) == registry;
    EmptyTemplatesBuild(registry, settings, slot);
  }

  /** With empty per-registry templates, a named registry whose
      configuration builds builds. */
  lemma EmptyTemplatesBuild(registry: Vars, settings: Settings, slot: nat)
    requires "name" in registry
    requires CreateRegistryConfig(settings.registryBase, WithDefaultType(registry), slot).Ok?
    requires settings.dockerPerRegistry == Mapping([Entry("compose", Mapping([]))])
    requires settings.traefikPerRegistry == Mapping([Entry("router", Mapping([])), Entry("service", Mapping([]))])
    ensures RegistryBuilds(registry, settings, slot)
  {
    EmptyTemplatesBuildable(FragmentVars(registry), settings);
  }

  /** Empty per-registry templates are there and build with any variables. */
  lemma EmptyTemplatesBuildable(vars: Vars, settings: Settings)
    requires settings.dockerPerRegistry == Mapping([Entry("compose", Mapping([]))])
    requires settings.traefikPerRegistry == Mapping([Entry("router", Mapping([])), Entry("service", Mapping([]))])
    ensures Buildable(settings, vars, DockerService)
    ensures Buildable(settings, vars, TraefikRouter)
    ensures Buildable(settings, vars, TraefikService)
  {
    assert "router" != "service";
    EmptyTemplateBuilds(vars, DockerService);
    EmptyTemplateBuilds(vars, TraefikRouter);
    EmptyTemplateBuilds(vars, TraefikService);
  }

  /** An empty customisation builds an empty fragment. */
  lemma EmptyTemplateBuilds(vars: Vars, b: Builder)
    ensures Build(b, vars, Mapping([])) == Ok(Mapping([]))
  {
  }
}

=== FILE: interpolate.dfy ===
/**
 `interpolate_strings` (functions.py lines 8-30): formats every string of a
 document against a variable map and rebuilds the document around the
 results. Mapping keys and non-string scalars are not touched.

 The partner of `Interpolate` is the flat view of a document: `Leaves` lists
 its strings in traversal order and `FormatAll` formats such a list left to
 right. `InterpolateByLeaves` shows that interpolating the tree is formatting
 its leaves in order (same success, same first error, same resulting
 strings), and `SameShape` says everything else stays where it was.
 */
module Interpolation {
  import opened Errors
  import opened Values
  import opened Templates

  /** `b` has the structure of `a`: strings where `a` has strings, the same
      keys in the same order, lists of the same length, and every other
      scalar equal. */
  predicate SameShape(a: Value, b: Value)
    decreases a
  {
    match a
    case Str(_) => b.Str?
    case Mapping(es) =>
      && b.Mapping?
      && |b.entries| == |es|
      && forall i :: 0 <= i < |es| ==> b.entries[i].key == es[i].key && SameShape(es[i].val, b.entries[i].val)
    case List(xs) =>
      && b.List?
      && |b.items| == |xs|
      && forall i :: 0 <= i < |xs| ==> SameShape(xs[i], b.items[i])
    case _ => b == a
  }

  /** `interpolate_strings(v, vars)`. */
  function Interpolate(v: Value, vars: Vars): (r: Result<Value>)
    ensures r.Ok? ==> SameShape(v, r.value)
    decreases v
  {
    match v
    case Str(s) =>
      var t :- Format(s, vars);
      Ok(Str(t))
    case Mapping(es) =>
      var es' :- InterpolateEntries(es, vars);
      Ok(Mapping(es'))
    case List(xs) =>
      var xs' :- InterpolateItems(xs, vars);
      Ok(List(xs'))
    case _ => Ok(v)
  }

  /** The dictionary comprehension of line 24, evaluated in key order. */
  function InterpolateEntries(es: seq<Entry>, vars: Vars): (r: Result<seq<Entry>>)
    ensures r.Ok? ==> |r.value| == |es|
    ensures r.Ok? ==> forall i :: 0 <= i < |es| ==>
                        r.value[i].key == es[i].key && SameShape(es[i].val, r.value[i].val)
    decreases es
  {
    if es == [] then Ok([])
    else
      var v :- Interpolate(es[0].val, vars);
      var rest :- InterpolateEntries(es[1..], vars);
      Ok([Entry(es[0].key, v)] + rest)
  }

  /** The list comprehension of line 27, evaluated in order. */
  function InterpolateItems(xs: seq<Value>, vars: Vars): (r: Result<seq<Value>>)
    ensures r.Ok? ==> |r.value| == |xs|
    ensures r.Ok? ==> forall i :: 0 <= i < |xs| ==> SameShape(xs[i], r.value[i])
    decreases xs
  {
    if xs == [] then Ok([])
    else
      var v :- Interpolate(xs[0], vars);
      var rest :- InterpolateItems(xs[1..], vars);
      Ok([v] + rest)
  }

  /** The strings of a document in traversal order (keys excluded). */
  function Leaves(v: Value): seq<string>
    decreases v
  {
    match v
    case Str(s) => [s]
    case Mapping(es) => EntryLeaves(es)
    case List(xs) => ItemLeaves(xs)
    case _ => []
  }

  function EntryLeaves(es: seq<Entry>): seq<string>
    decreases es
  {
    if es == [] then [] else Leaves(es[0].val) + EntryLeaves(es[1..])
  }

  function ItemLeaves(xs: seq<Value>): seq<string>
    decreases xs
  {
    if xs == [] then [] else Leaves(xs[0]) + ItemLeaves(xs[1..])
  }

  /** Formats a list of strings left to right, failing at the first error. */
  function FormatAll(ss: seq<string>, vars: Vars): Result<seq<string>> {
    if ss == [] then Ok([])
    else
      var h :- Format(ss[0], vars);
      var t :- FormatAll(ss[1..], vars);
      Ok([h] + t)
  }

  /** Sequencing two results: the first error, else both values joined. */
  function Join(a: Result<seq<string>>, b: Result<seq<string>>): Result<seq<string>> {
    if a.Err? then a
    else if b.Err? then b
    else Ok(a.value + b.value)
  }

  lemma {:induction false} FormatAllAppend(a: seq<string>, b: seq<string>, vars: Vars)
    ensures FormatAll(a + b, vars) == Join(FormatAll(a, vars), FormatAll(b, vars))
    decreases |a|
  {
    if a == [] {
      assert a + b == b;
      if FormatAll(b, vars).Ok? {
        assert [] + FormatAll(b, vars).value == FormatAll(b, vars).value;
      }
    } else {
      assert (a + b)[0] == a[0];
      assert (a + b)[1..] == a[1..] + b;
      FormatAllAppend(a[1..], b, vars);
      var h := Format(a[0], vars);
      var x := FormatAll(a[1..], vars);
      var y := FormatAll(b, vars);
      if h.Ok? && x.Ok? && y.Ok? {
        assert [h.value] + (x.value + y.value) == ([h.value] + x.value) + y.value;
      }
    }
  }

  /** Formatting a list succeeds exactly when every string in it formats. */
  lemma {:induction false} FormatAllOkIff(ss: seq<string>, vars: Vars)
    ensures FormatAll(ss, vars).Ok? <==> forall s :: s in ss ==> Format(s, vars).Ok?
    decreases |ss|
  {
    if ss != [] {
      FormatAllOkIff(ss[1..], vars);
      if FormatAll(ss, vars).Ok? {
        forall s | s in ss
          ensures Format(s, vars).Ok?
        {
          var i :| 0 <= i < |ss| && ss[i] == s;
          if i > 0 {
            assert ss[1..][i - 1] == s;
          }
        }
      }
      if forall s :: s in ss ==> Format(s, vars).Ok? {
        assert ss[0] in ss;
        forall s | s in ss[1..]
          ensures Format(s, vars).Ok?
        {
          var i :| 0 <= i < |ss[1..]| && ss[1..][i] == s;
          assert ss[i + 1] == s;
        }
      }
    }
  }

  /** Interpolating a document is formatting its strings in traversal
      order: it succeeds exactly when that does, fails with the same first
      error, and yields a document whose strings are the formatted ones. */
  lemma {:induction false} InterpolateByLeaves(v: Value, vars: Vars)
    ensures Interpolate(v, vars).Ok? <==> FormatAll(Leaves(v), vars).Ok?
    ensures Interpolate(v, vars).Err? ==> Interpolate(v, vars).error == FormatAll(Leaves(v), vars).error
    ensures Interpolate(v, vars).Ok? ==> Leaves(Interpolate(v, vars).value) == FormatAll(Leaves(v), vars).value
    decreases v
  {
    match v
    case Str(s) =>
      assert [s][1..] == [];
    case Mapping(es) =>
      EntriesByLeaves(es, vars);
    case List(xs) =>
      ItemsByLeaves(xs, vars);
    case _ =>
  }

  lemma {:induction false} EntriesByLeaves(es: seq<Entry>, vars: Vars)
    ensures InterpolateEntries(es, vars).Ok? <==> FormatAll(EntryLeaves(es), vars).Ok?
    ensures InterpolateEntries(es, vars).Err? ==>
              InterpolateEntries(es, vars).error == FormatAll(EntryLeaves(es), vars).error
    ensures InterpolateEntries(es, vars).Ok? ==>
              EntryLeaves(InterpolateEntries(es, vars).value) == FormatAll(EntryLeaves(es), vars).value
    decreases es
  {
    if es != [] {
      InterpolateByLeaves(es[0].val, vars);
      EntriesByLeaves(es[1..], vars);
      FormatAllAppend(Leaves(es[0].val), EntryLeaves(es[1..]), vars);
      var r := InterpolateEntries(es, vars);
      if r.Ok? {
        assert r.value[1..] == InterpolateEntries(es[1..], vars).value;
      }
    }
  }

  lemma {:induction false} ItemsByLeaves(xs: seq<Value>, vars: Vars)
    ensures InterpolateItems(xs, vars).Ok? <==> FormatAll(ItemLeaves(xs), vars).Ok?
    ensures InterpolateItems(xs, vars).Err? ==>
              InterpolateItems(xs, vars).error == FormatAll(ItemLeaves(xs), vars).error
    ensures InterpolateItems(xs, vars).Ok? ==>
              ItemLeaves(InterpolateItems(xs, vars).value) == FormatAll(ItemLeaves(xs), vars).value
    decreases xs
  {
    if xs != [] {
      InterpolateByLeaves(xs[0], vars);
      ItemsByLeaves(xs[1..], vars);
      FormatAllAppend(Leaves(xs[0]), ItemLeaves(xs[1..]), vars);
      var r := InterpolateItems(xs, vars);
      if r.Ok? {
        assert r.value[1..] == InterpolateItems(xs[1..], vars).value;
      }
    }
  }

  /** A document interpolates without error exactly when each of its
      strings formats without error; one bad string fails the whole call. */
  lemma InterpolateOkIff(v: Value, vars: Vars)
    ensures Interpolate(v, vars).Ok? <==> forall s :: s in Leaves(v) ==> Format(s, vars).Ok?
  {
    InterpolateByLeaves(v, vars);
    FormatAllOkIff(Leaves(v), vars);
  }

  /** A document none of whose strings holds a brace is its own
      interpolation, under any variable map (the empty one included). */
  lemma {:induction false} NoPlaceholdersUnchanged(v: Value, vars: Vars)
    requires forall s :: s in Leaves(v) ==> BraceFree(s)
    ensures Interpolate(v, vars) == Ok(v)
    decreases v
  {
    match v
    case Str(s) =>
    case Mapping(es) =>
      EntriesNoPlaceholdersUnchanged(es, vars);
    case List(xs) =>
      ItemsNoPlaceholdersUnchanged(xs, vars);
    case _ =>
  }

  lemma {:induction false} EntriesNoPlaceholdersUnchanged(es: seq<Entry>, vars: Vars)
    requires forall s :: s in EntryLeaves(es) ==> BraceFree(s)
    ensures InterpolateEntries(es, vars) == Ok(es)
    decreases es
  {
    if es != [] {
      NoPlaceholdersUnchanged(es[0].val, vars);
      EntriesNoPlaceholdersUnchanged(es[1..], vars);
      assert [Entry(es[0].key, es[0].val)] + es[1..] == es;
    }
  }

  lemma {:induction false} ItemsNoPlaceholdersUnchanged(xs: seq<Value>, vars: Vars)
    requires forall s :: s in ItemLeaves(xs) ==> BraceFree(s)
    ensures InterpolateItems(xs, vars) == Ok(xs)
    decreases xs
  {
    if xs != [] {
      NoPlaceholdersUnchanged(xs[0], vars);
      ItemsNoPlaceholdersUnchanged(xs[1..], vars);
      assert [xs[0]] + xs[1..] == xs;
    }
  }

  /** `r` holds at `p` the interpolation of what `t` holds there, or both
      hold nothing there. */
  ghost predicate InterpolatedAt(r: Value, t: Value, p: seq<string>, vars: Vars) {
    || (At(r, p).None? && At(t, p).None?)
    || (At(r, p).Some? && At(t, p).Some? && Interpolate(At(t, p).value, vars) == Ok(At(r, p).value))
  }

  /** Looking a key up in an interpolated mapping finds the interpolation of
      what the template holds under that key. */
  lemma {:induction false} LookupInterpolated(es: seq<Entry>, k: string, vars: Vars)
    requires InterpolateEntries(es, vars).Ok?
    ensures var rs := InterpolateEntries(es, vars).value;
      && (Lookup(rs, k).Some? <==> Lookup(es, k).Some?)
      && (Lookup(es, k).Some? ==> Interpolate(Lookup(es, k).value, vars) == Ok(Lookup(rs, k).value))
    decreases es
  {
    if es != [] {
      var rs := InterpolateEntries(es, vars).value;
      assert rs[0].key == es[0].key;
      assert rs[1..] == InterpolateEntries(es[1..], vars).value;
      LookupInterpolated(es[1..], k, vars);
    }
  }

  /** Whatever path is read, the interpolated document holds there the
      interpolation of what the template holds there: keys are never
      renamed, added or dropped. */
  lemma {:induction false} InterpolateAt(v: Value, p: seq<string>, vars: Vars)
    requires Interpolate(v, vars).Ok?
    ensures InterpolatedAt(Interpolate(v, vars).value, v, p, vars)
    decreases |p|
  {
    var r := Interpolate(v, vars).value;
    if p == [] {
    } else if v.Mapping? {
      LookupInterpolated(v.entries, p[0], vars);
      var c := Lookup(v.entries, p[0]);
      if c.Some? {
        InterpolateAt(c.value, p[1..], vars);
      }
    }
  }

  /** Only strings can change truthiness under interpolation: a mapping or
      list keeps its length, every other scalar is unchanged. */
  lemma TruthinessKept(v: Value, vars: Vars)
    requires Interpolate(v, vars).Ok?
    requires !v.Str?
    ensures Truthy(Interpolate(v, vars).value) == Truthy(v)
  {
  }

  /** A string that fails to format anywhere in a document fails the whole
      interpolation. */
  lemma BadLeafFails(v: Value, s: string, vars: Vars)
    requires s in Leaves(v) && Format(s, vars).Err?
    ensures Interpolate(v, vars).Err?
  {
    InterpolateOkIff(v, vars);
  }

  /** The strings under a key of a mapping are strings of the mapping. */
  lemma {:induction false} LookupLeaves(es: seq<Entry>, k: string, c: Value, s: string)
    requires Lookup(es, k) == Some(c) && s in Leaves(c)
    ensures s in EntryLeaves(es)
    decreases |es|
  {
    if es[0].key != k {
      LookupLeaves(es[1..], k, c, s);
    }
  }

  /** Assigning `x` under a key adds no string but those of `x`. */
  lemma {:induction false} EntryLeavesPut(es: seq<Entry>, k: string, x: Value, s: string)
    requires s in EntryLeaves(Put(es, k, x))
    ensures s in EntryLeaves(es) || s in Leaves(x)
    decreases |es|
  {
    var r := Put(es, k, x);
    if es != [] {
      assert r[1..] == (if es[0].key == k then es[1..] else Put(es[1..], k, x));
      assert r[0] == (if es[0].key == k then Entry(k, x) else es[0]);
      if s !in Leaves(r[0].val) && es[0].key != k {
        EntryLeavesPut(es[1..], k, x, s);
      }
    }
  }

  /** A nested assignment of `x` adds no string but those of `x`: every
      string of the result was in the document or is in `x`. */
  lemma {:induction false} LeavesSetAt(v: Value, path: seq<string>, x: Value, s: string)
    requires |path| > 0 && SetAt(v, path, x).Ok?
    requires s in Leaves(SetAt(v, path, x).value)
    ensures s in Leaves(v) || s in Leaves(x)
    decreases |path|
  {
    if |path| == 1 {
      EntryLeavesPut(v.entries, path[0], x, s);
    } else {
      var child := Lookup(v.entries, path[0]).value;
      var c := SetAt(child, path[1..], x).value;
      assert SetAt(v, path, x).value == Mapping(Put(v.entries, path[0], c));
      EntryLeavesPut(v.entries, path[0], c, s);
      if s in Leaves(c) {
        LeavesSetAt(child, path[1..], x, s);
        if s in Leaves(child) {
          LookupLeaves(v.entries, path[0], child, s);
        }
      }
    }
  }
}

=== FILE: registry_config.dfy ===
/**
 `create_registry_config` (functions.py lines 86-110): the per-registry
 configuration of the caching proxy, derived from a base template.

 It runs in three stages, as the source does: the registry's URL,
 credentials and TTL are written into the template's `proxy` section
 (`SetProxyFields`), the whole document is interpolated against the
 registry's fields, and the redis database slot is written into a non-empty
 `redis` section (`AssignSlot`). The lemmas at the end state what the final
 document holds at each place in terms of the template and the registry.
 */
module RegistryConfig {
  import opened Errors
  import opened Values
  import opened Templates
  import opened Interpolation

  /** `registry[k]`. */
  function Item(registry: Vars, k: string): (r: Result<string>)
    ensures r.Ok? <==> k in registry
    ensures r.Ok? ==> r.value == registry[k]
    ensures r.Err? ==> r.error == MissingKey(k)
  {
    if k in registry then Ok(registry[k]) else Err(MissingKey(k))
  }

  /** The template has a `proxy` section that is a mapping. */
  predicate ProxyIsMapping(config: Value) {
    At(config, ["proxy"]).Some? && At(config, ["proxy"]).value.Mapping?
  }

  /** Both credentials are present and non-empty (line 99). */
  predicate HasCredentials(registry: Vars) {
    && "username" in registry && registry["username"] != ""
    && "password" in registry && registry["password"] != ""
  }

  /** A path outside the four proxy fields the registry may write. */
  predicate OutsideProxyFields(p: seq<string>) {
    && Diverge(p, ["proxy", "remoteurl"])
    && Diverge(p, ["proxy", "username"])
    && Diverge(p, ["proxy", "password"])
    && Diverge(p, ["proxy", "ttl"])
  }

  lemma WritableProxy(v: Value, k: string)
    ensures Writable(v, ["proxy", k]) <==> ProxyIsMapping(v)
  {
    var path := ["proxy", k];
    assert path[..0] == [];
    assert path[..1] == ["proxy"];
    if ProxyIsMapping(v) {
      assert At(v, ["proxy"]).Some?;
      forall i | 0 <= i < |path|
        ensures At(v, path[..i]).Some? && At(v, path[..i]).value.Mapping?
      {
        assert i == 0 || i == 1;
      }
    }
  }

  /** Two distinct proxy fields never overlap, and the redis slot is
      outside the proxy section. */
  lemma ProxyPathsDiverge()
    ensures Diverge(["proxy", "remoteurl"], ["proxy", "username"])
    ensures Diverge(["proxy", "remoteurl"], ["proxy", "password"])
    ensures Diverge(["proxy", "remoteurl"], ["proxy", "ttl"])
    ensures Diverge(["proxy", "username"], ["proxy", "password"])
    ensures Diverge(["proxy", "username"], ["proxy", "ttl"])
    ensures Diverge(["proxy", "password"], ["proxy", "ttl"])
    ensures Diverge(["proxy", "username"], ["proxy", "remoteurl"])
    ensures Diverge(["proxy", "password"], ["proxy", "remoteurl"])
    ensures Diverge(["proxy", "ttl"], ["proxy", "remoteurl"])
    ensures Diverge(["proxy", "ttl"], ["proxy", "username"])
    ensures Diverge(["proxy", "ttl"], ["proxy", "password"])
    ensures forall k :: Diverge(["proxy", k], ["redis", "db"])
  {
    var r: seq<string> := ["remoteurl"];
    assert ["proxy", "remoteurl"][1..] == ["remoteurl"];
    assert ["proxy", "username"][1..] == ["username"];
    assert ["proxy", "password"][1..] == ["password"];
    assert ["proxy", "ttl"][1..] == ["ttl"];
    assert "remoteurl" != "username" && "remoteurl" != "password" && "remoteurl" != "ttl";
    assert "username" != "password" && "username" != "ttl" && "password" != "ttl";
    assert "proxy" != "redis";
  }

  /** `config['proxy'][k] = x` on a template whose proxy section is a
      mapping: the write always succeeds and touches nothing else. */
  function SetProxyField(c: Value, k: string, x: Value): (r: Value)
    requires ProxyIsMapping(c)
    ensures r.Mapping? && Keys(r.entries) == Keys(c.entries) && ProxyIsMapping(r)
    ensures At(r, ["proxy", k]) == Some(x)
    ensures forall p :: Diverge(p, ["proxy", k]) ==> At(r, p) == At(c, p)
  {
    WritableProxy(c, k);
    var r := SetAt(c, ["proxy", k], x).value;
    WritableProxy(r, k);
    r
  }

  /** Lines 98-102: the URL is read, the proxy section is written, then the
      username (and the password only when the username is non-empty) and
      the TTL are read and written. */
  function SetProxyFields(config: Value, registry: Vars): (r: Result<Value>)
    ensures r.Ok? <==>
              && "url" in registry && ProxyIsMapping(config)
              && "username" in registry
              && (registry["username"] != "" ==> "password" in registry)
              && "ttl" in registry
    ensures "url" !in registry ==> r == Err(MissingKey("url"))
    ensures r.Ok? ==> r.value.Mapping? && Keys(r.value.entries) == Keys(config.entries)
  {
    WritableProxy(config, "remoteurl");
    var url :- Item(registry, "url");
    var c1 :- SetAt(config, ["proxy", "remoteurl"], Str(url));
    assert c1 == SetProxyField(config, "remoteurl", Str(url));
    var user :- Item(registry, "username");
    var c2 :- Credentials(c1, registry, user);
    var ttl :- Item(registry, "ttl");
    Ok(if ttl == "" then c2 else SetProxyField(c2, "ttl", Str(ttl)))
  }

  /** Lines 99-101: both credentials are written, or neither. */
  function Credentials(c: Value, registry: Vars, user: string): (r: Result<Value>)
    requires ProxyIsMapping(c)
    requires "username" in registry && registry["username"] == user
    ensures r.Ok? <==> (user != "" ==> "password" in registry)
    ensures r.Ok? ==> r.value.Mapping? && Keys(r.value.entries) == Keys(c.entries) && ProxyIsMapping(r.value)
    ensures r.Ok? && HasCredentials(registry) ==>
              && At(r.value, ["proxy", "username"]) == Some(Str(registry["username"]))
              && At(r.value, ["proxy", "password"]) == Some(Str(registry["password"]))
    ensures r.Ok? && !HasCredentials(registry) ==> r.value == c
    ensures r.Ok? ==> forall p :: Diverge(p, ["proxy", "username"]) && Diverge(p, ["proxy", "password"]) ==>
                        At(r.value, p) == At(c, p)
  {
    if user == "" then Ok(c)
    else
      var pass :- Item(registry, "password");
      if pass == "" then Ok(c)
      else
        ProxyPathsDiverge();
        var c1 := SetProxyField(c, "username", Str(user));
        Ok(SetProxyField(c1, "password", Str(pass)))
  }

  /** `r` is the template after the URL, the credentials and the TTL are
      written, one assignment at a time. */
  predicate PreparedBy(config: Value, registry: Vars, r: Value) {
    && ProxyIsMapping(config) && "url" in registry && "username" in registry && "ttl" in registry
    && var c1 := SetProxyField(config, "remoteurl", Str(registry["url"]));
       && Credentials(c1, registry, registry["username"]).Ok?
       && var c2 := Credentials(c1, registry, registry["username"]).value;
          r == if registry["ttl"] == "" then c2 else SetProxyField(c2, "ttl", Str(registry["ttl"]))
  }

  /** The prepared template in terms of the single writes it is made of. */
  lemma ProxyWrites(config: Value, registry: Vars)
    requires SetProxyFields(config, registry).Ok?
    ensures PreparedBy(config, registry, SetProxyFields(config, registry).value)
  {
    WritableProxy(config, "remoteurl");
  }

  /** What the prepared template holds at the four proxy fields. */
  lemma ProxyFieldsWritten(config: Value, registry: Vars)
    requires SetProxyFields(config, registry).Ok?
    ensures "url" in registry && "ttl" in registry
    ensures var r := SetProxyFields(config, registry).value;
      && At(r, ["proxy", "remoteurl"]) == Some(Str(registry["url"]))
      && (HasCredentials(registry) ==>
            && At(r, ["proxy", "username"]) == Some(Str(registry["username"]))
            && At(r, ["proxy", "password"]) == Some(Str(registry["password"])))
      && (!HasCredentials(registry) ==>
            && At(r, ["proxy", "username"]) == At(config, ["proxy", "username"])
            && At(r, ["proxy", "password"]) == At(config, ["proxy", "password"]))
      && (registry["ttl"] != "" ==> At(r, ["proxy", "ttl"]) == Some(Str(registry["ttl"])))
      && (registry["ttl"] == "" ==> At(r, ["proxy", "ttl"]) == At(config, ["proxy", "ttl"]))
  {
    ProxyWrites(config, registry);
    FieldsOfPrepared(config, registry, SetProxyFields(config, registry).value);
  }

  lemma FieldsOfPrepared(config: Value, registry: Vars, r: Value)
    requires PreparedBy(config, registry, r)
    ensures "url" in registry && "ttl" in registry
    ensures && At(r, ["proxy", "remoteurl"]) == Some(Str(registry["url"]))
      && (HasCredentials(registry) ==>
            && At(r, ["proxy", "username"]) == Some(Str(registry["username"]))
            && At(r, ["proxy", "password"]) == Some(Str(registry["password"])))
      && (!HasCredentials(registry) ==>
            && At(r, ["proxy", "username"]) == At(config, ["proxy", "username"])
            && At(r, ["proxy", "password"]) == At(config, ["proxy", "password"]))
      && (registry["ttl"] != "" ==> At(r, ["proxy", "ttl"]) == Some(Str(registry["ttl"])))
      && (registry["ttl"] == "" ==> At(r, ["proxy", "ttl"]) == At(config, ["proxy", "ttl"]))
  {
    ProxyPathsDiverge();
    var c1 := SetProxyField(config, "remoteurl", Str(registry["url"]));
    var c2 := Credentials(c1, registry, registry["username"]).value;
    FieldsAfterCredentials(config, registry, c1, c2);
    if registry["ttl"] != "" {
      var ttl := Str(registry["ttl"]);
      FieldFrame(c2, "ttl", ttl, r, ["proxy", "remoteurl"]);
      FieldFrame(c2, "ttl", ttl, r, ["proxy", "username"]);
      FieldFrame(c2, "ttl", ttl, r, ["proxy", "password"]);
    }
  }

  /** The proxy fields after the URL and the credentials are written. */
  lemma FieldsAfterCredentials(config: Value, registry: Vars, c1: Value, c2: Value)
    requires ProxyIsMapping(config) && "url" in registry && "username" in registry
    requires c1 == SetProxyField(config, "remoteurl", Str(registry["url"]))
    requires Credentials(c1, registry, registry["username"]) == Ok(c2)
    ensures At(c2, ["proxy", "remoteurl"]) == Some(Str(registry["url"]))
    ensures At(c2, ["proxy", "ttl"]) == At(config, ["proxy", "ttl"])
    ensures HasCredentials(registry) ==>
              && At(c2, ["proxy", "username"]) == Some(Str(registry["username"]))
              && At(c2, ["proxy", "password"]) == Some(Str(registry["password"]))
    ensures !HasCredentials(registry) ==>
              && At(c2, ["proxy", "username"]) == At(config, ["proxy", "username"])
              && At(c2, ["proxy", "password"]) == At(config, ["proxy", "password"])
  {
    ProxyPathsDiverge();
    FieldFrame(config, "remoteurl", Str(registry["url"]), c1, ["proxy", "username"]);
    FieldFrame(config, "remoteurl", Str(registry["url"]), c1, ["proxy", "password"]);
    FieldFrame(config, "remoteurl", Str(registry["url"]), c1, ["proxy", "ttl"]);
    CredentialsFrame(c1, registry, c2, ["proxy", "remoteurl"]);
    CredentialsFrame(c1, registry, c2, ["proxy", "ttl"]);
  }

  /** A write of one proxy field leaves every diverging path alone. */
  lemma FieldFrame(c: Value, k: string, x: Value, r: Value, p: seq<string>)
    requires ProxyIsMapping(c) && r == SetProxyField(c, k, x)
    requires Diverge(p, ["proxy", k])
    ensures At(r, p) == At(c, p)
  {
  }

  lemma CredentialsFrame(c: Value, registry: Vars, c2: Value, p: seq<string>)
    requires ProxyIsMapping(c) && "username" in registry
    requires Credentials(c, registry, registry["username"]) == Ok(c2)
    requires Diverge(p, ["proxy", "username"]) && Diverge(p, ["proxy", "password"])
    ensures At(c2, p) == At(c, p)
  {
  }

  /** Nothing outside the four proxy fields changes before interpolation. */
  lemma ProxyRestUnchanged(config: Value, registry: Vars, p: seq<string>)
    requires SetProxyFields(config, registry).Ok?
    requires OutsideProxyFields(p)
    ensures At(SetProxyFields(config, registry).value, p) == At(config, p)
  {
    ProxyWrites(config, registry);
    RestOfPrepared(config, registry, SetProxyFields(config, registry).value, p);
  }

  lemma RestOfPrepared(config: Value, registry: Vars, r: Value, p: seq<string>)
    requires PreparedBy(config, registry, r)
    requires OutsideProxyFields(p)
    ensures At(r, p) == At(config, p)
  {
    var c1 := SetProxyField(config, "remoteurl", Str(registry["url"]));
    var c2 := Credentials(c1, registry, registry["username"]).value;
    assert At(c1, p) == At(config, p);
    assert At(c2, p) == At(c1, p);
  }

  /** Lines 107-108: `interpolated['redis']` must exist; when it is truthy
      it must be a mapping, and its `db` becomes the slot. */
  function AssignSlot(v: Value, db: int): (r: Result<Value>)
    ensures r.Ok? <==>
              && v.Mapping? && "redis" in Keys(v.entries)
              && (Truthy(Lookup(v.entries, "redis").value) ==> Lookup(v.entries, "redis").value.Mapping?)
    ensures v.Mapping? && "redis" !in Keys(v.entries) ==> r == Err(MissingKey("redis"))
    ensures r.Ok? && Truthy(Lookup(v.entries, "redis").value) ==>
              && At(r.value, ["redis", "db"]) == Some(Int(db))
              && forall p :: Diverge(p, ["redis", "db"]) ==> At(r.value, p) == At(v, p)
    ensures r.Ok? && !Truthy(Lookup(v.entries, "redis").value) ==> r.value == v
    ensures r.Ok? ==> r.value.Mapping? && Keys(r.value.entries) == Keys(v.entries)
  {
    var redis :- Select(v, "redis");
    if Truthy(redis) then
      var path := ["redis", "db"];
      assert path[..0] == [] && path[..1] == ["redis"];
      assert At(v, ["redis"]) == Some(redis);
      assert Writable(v, path) <==> redis.Mapping? by {
        if redis.Mapping? {
          forall i | 0 <= i < |path|
            ensures At(v, path[..i]).Some? && At(v, path[..i]).value.Mapping?
          {
            assert i == 0 || i == 1;
          }
        }
      }
      SetAt(v, path, Int(db))
    else Ok(v)
  }

  /** `create_registry_config(config, registry, db)`. */
  function CreateRegistryConfig(config: Value, registry: Vars, db: int): (r: Result<Value>)
    ensures "url" !in registry ==> r == Err(MissingKey("url"))
    ensures r.Ok? ==> "url" in registry && "username" in registry && "ttl" in registry
    ensures r.Ok? ==> ProxyIsMapping(config) && config.Mapping? && "redis" in Keys(config.entries)
    ensures r.Ok? ==> r.value.Mapping? && Keys(r.value.entries) == Keys(config.entries)
  {
    var prepared :- SetProxyFields(config, registry);
    var interpolated :- Interpolate(prepared, registry);
    AssignSlot(interpolated, db)
  }

  /** The interpolated template, the document the slot is written into. */
  lemma Stages(config: Value, registry: Vars, db: int)
    requires CreateRegistryConfig(config, registry, db).Ok?
    ensures SetProxyFields(config, registry).Ok?
    ensures Interpolate(SetProxyFields(config, registry).value, registry).Ok?
    ensures CreateRegistryConfig(config, registry, db)
         == AssignSlot(Interpolate(SetProxyFields(config, registry).value, registry).value, db)
  {
  }

  /** What the result holds at a path the slot assignment does not touch:
      the interpolation of what the prepared template holds there. */
  lemma ResultAt(config: Value, registry: Vars, db: int, p: seq<string>)
    requires CreateRegistryConfig(config, registry, db).Ok?
    requires Diverge(p, ["redis", "db"])
    ensures InterpolatedAt(CreateRegistryConfig(config, registry, db).value,
                           SetProxyFields(config, registry).value, p, registry)
  {
    Stages(config, registry, db);
    var prepared := SetProxyFields(config, registry).value;
    InterpolateAt(prepared, p, registry);
  }

  /** `proxy.remoteurl` is always the registry's URL, itself interpolated
      against the registry; a URL that does not format fails the call. */
  lemma RemoteUrlAlwaysSet(config: Value, registry: Vars, db: int)
    requires CreateRegistryConfig(config, registry, db).Ok?
    ensures "url" in registry && Format(registry["url"], registry).Ok?
    ensures At(CreateRegistryConfig(config, registry, db).value, ["proxy", "remoteurl"])
         == Some(Str(Format(registry["url"], registry).value))
  {
    ProxyPathsDiverge();
    ProxyFieldsWritten(config, registry);
    ResultAt(config, registry, db, ["proxy", "remoteurl"]);
    StringInterpolated(CreateRegistryConfig(config, registry, db).value, SetProxyFields(config, registry).value,
                       registry, ["proxy", "remoteurl"], registry["url"]);
  }

  /** A string the prepared template holds at `p` is formatted there. */
  lemma StringInterpolated(r: Value, prepared: Value, registry: Vars, p: seq<string>, x: string)
    requires InterpolatedAt(r, prepared, p, registry)
    requires At(prepared, p) == Some(Str(x))
    ensures Format(x, registry).Ok? && At(r, p) == Some(Str(Format(x, registry).value))
  {
  }

  /** The username and password are written as a pair, only when both are
      non-empty, each interpolated; otherwise both keep the template's
      (interpolated) values, or stay absent. */
  lemma CredentialsOnlyAsPair(config: Value, registry: Vars, db: int)
    requires CreateRegistryConfig(config, registry, db).Ok?
    ensures HasCredentials(registry) ==>
              && Format(registry["username"], registry).Ok?
              && Format(registry["password"], registry).Ok?
              && At(CreateRegistryConfig(config, registry, db).value, ["proxy", "username"])
                 == Some(Str(Format(registry["username"], registry).value))
              && At(CreateRegistryConfig(config, registry, db).value, ["proxy", "password"])
                 == Some(Str(Format(registry["password"], registry).value))
    ensures !HasCredentials(registry) ==>
              && InterpolatedAt(CreateRegistryConfig(config, registry, db).value, config, ["proxy", "username"], registry)
              && InterpolatedAt(CreateRegistryConfig(config, registry, db).value, config, ["proxy", "password"], registry)
  {
    ProxyPathsDiverge();
    ProxyFieldsWritten(config, registry);
    ResultAt(config, registry, db, ["proxy", "username"]);
    ResultAt(config, registry, db, ["proxy", "password"]);
    if HasCredentials(registry) {
      var r := CreateRegistryConfig(config, registry, db).value;
      var prepared := SetProxyFields(config, registry).value;
      StringInterpolated(r, prepared, registry, ["proxy", "username"], registry["username"]);
      StringInterpolated(r, prepared, registry, ["proxy", "password"], registry["password"]);
    }
  }

  /** `proxy.ttl` is the registry's (interpolated) TTL when that is
      non-empty, and the template's otherwise. */
  lemma TtlOnlyWhenNonEmpty(config: Value, registry: Vars, db: int)
    requires CreateRegistryConfig(config, registry, db).Ok?
    ensures registry["ttl"] != "" ==>
              && Format(registry["ttl"], registry).Ok?
              && At(CreateRegistryConfig(config, registry, db).value, ["proxy", "ttl"])
                 == Some(Str(Format(registry["ttl"], registry).value))
    ensures registry["ttl"] == "" ==>
              InterpolatedAt(CreateRegistryConfig(config, registry, db).value, config, ["proxy", "ttl"], registry)
  {
    ProxyPathsDiverge();
    ProxyFieldsWritten(config, registry);
    ResultAt(config, registry, db, ["proxy", "ttl"]);
    if registry["ttl"] != "" {
      StringInterpolated(CreateRegistryConfig(config, registry, db).value, SetProxyFields(config, registry).value,
                         registry, ["proxy", "ttl"], registry["ttl"]);
    }
  }

  /** Everywhere outside the four proxy fields and the redis slot the result
      is the template interpolated: other proxy keys keep their template
      values, and no key is added or dropped. */
  lemma RestOfTemplateInterpolated(config: Value, registry: Vars, db: int, p: seq<string>)
    requires CreateRegistryConfig(config, registry, db).Ok?
    requires OutsideProxyFields(p) && Diverge(p, ["redis", "db"])
    ensures InterpolatedAt(CreateRegistryConfig(config, registry, db).value, config, p, registry)
  {
    ProxyRestUnchanged(config, registry, p);
    ResultAt(config, registry, db, p);
  }

  /** `redis.db` is the slot exactly when the interpolated `redis` section
      is truthy (then it is a mapping); a falsy section (empty mapping,
      null, empty string) is left as it is. For a mapping section,
      truthiness is non-emptiness of the template's section. */
  lemma SlotAssigned(config: Value, registry: Vars, db: int)
    requires CreateRegistryConfig(config, registry, db).Ok?
    ensures At(config, ["redis"]).Some?
    ensures Interpolate(At(config, ["redis"]).value, registry).Ok?
    ensures var section := Interpolate(At(config, ["redis"]).value, registry).value;
      && (Truthy(section) ==>
            section.Mapping? && At(CreateRegistryConfig(config, registry, db).value, ["redis", "db"]) == Some(Int(db)))
      && (!Truthy(section) ==> At(CreateRegistryConfig(config, registry, db).value, ["redis"]) == Some(section))
      && (At(config, ["redis"]).value.Mapping? ==> (Truthy(section) <==> |At(config, ["redis"]).value.entries| > 0))
  {
    Stages(config, registry, db);
    RedisOutsideProxy();
    ProxyRestUnchanged(config, registry, ["redis"]);
    SlotOfTemplate(config, SetProxyFields(config, registry).value, registry, db);
  }

  lemma RedisOutsideProxy()
    ensures OutsideProxyFields(["redis"])
  {
    assert "redis" != "proxy";
  }

  /** The slot assignment on a document that agrees with the template on
      `redis`, once interpolated. */
  lemma SlotOfTemplate(config: Value, prepared: Value, registry: Vars, db: int)
    requires config.Mapping? && "redis" in Keys(config.entries)
    requires At(prepared, ["redis"]) == At(config, ["redis"])
    requires Interpolate(prepared, registry).Ok?
    requires AssignSlot(Interpolate(prepared, registry).value, db).Ok?
    ensures At(config, ["redis"]).Some?
    ensures Interpolate(At(config, ["redis"]).value, registry).Ok?
    ensures var section := Interpolate(At(config, ["redis"]).value, registry).value;
      var r := AssignSlot(Interpolate(prepared, registry).value, db).value;
      && (Truthy(section) ==> section.Mapping? && At(r, ["redis", "db"]) == Some(Int(db)))
      && (!Truthy(section) ==> At(r, ["redis"]) == Some(section))
      && (At(config, ["redis"]).value.Mapping? ==> (Truthy(section) <==> |At(config, ["redis"]).value.entries| > 0))
  {
    RedisSection(config, prepared, registry);
    var t := At(config, ["redis"]).value;
    SlotOfSection(Interpolate(prepared, registry).value, Interpolate(t, registry).value, db);
    if !t.Str? {
      TruthinessKept(t, registry);
    }
  }

  /** A document that agrees with the template on `redis`, once
      interpolated, holds the template's section interpolated there. */
  lemma RedisSection(config: Value, prepared: Value, registry: Vars)
    requires config.Mapping? && "redis" in Keys(config.entries)
    requires At(prepared, ["redis"]) == At(config, ["redis"])
    requires Interpolate(prepared, registry).Ok?
    ensures At(config, ["redis"]).Some?
    ensures Interpolate(At(config, ["redis"]).value, registry).Ok?
    ensures var interpolated := Interpolate(prepared, registry).value;
      && interpolated.Mapping?
      && Lookup(interpolated.entries, "redis") == Some(Interpolate(At(config, ["redis"]).value, registry).value)
  {
    InterpolateAt(prepared, ["redis"], registry);
    assert ["redis"][1..] == [];
    assert At(config, ["redis"]) == Lookup(config.entries, "redis");
    var interpolated := Interpolate(prepared, registry).value;
    assert At(interpolated, ["redis"]) == Lookup(interpolated.entries, "redis");
  }

  /** The slot assignment on its own: a truthy section gets `db`, a falsy
      one is left as it is. */
  lemma SlotOfSection(v: Value, section: Value, db: int)
    requires v.Mapping? && Lookup(v.entries, "redis") == Some(section)
    requires AssignSlot(v, db).Ok?
    ensures Truthy(section) ==> section.Mapping? && At(AssignSlot(v, db).value, ["redis", "db"]) == Some(Int(db))
    ensures !Truthy(section) ==> At(AssignSlot(v, db).value, ["redis"]) == Some(section)
  {
    assert ["redis"][1..] == [];
    assert At(v, ["redis"]) == Some(section);
  }

  /** An empty `redis` section is falsy, so it stays empty: no `db` key is
      added to it. */
  lemma EmptyRedisSectionUntouched(config: Value, registry: Vars, db: int)
    requires CreateRegistryConfig(config, registry, db).Ok?
    requires At(config, ["redis"]) == Some(Mapping([]))
    ensures At(CreateRegistryConfig(config, registry, db).value, ["redis"]) == Some(Mapping([]))
    ensures At(CreateRegistryConfig(config, registry, db).value, ["redis", "db"]).None?
  {
    SlotAssigned(config, registry, db);
    var r := CreateRegistryConfig(config, registry, db).value;
    assert Interpolate(Mapping([]), registry) == Ok(Mapping([]));
    assert Lookup(r.entries, "redis") == Some(Mapping([]));
    assert ["redis", "db"][1..] == ["db"];
  }

  /** What lines 98-102 need: a `url`, a `username`, a `password` when the
      username is non-empty, a `ttl`, and a `proxy` section that is a mapping. */
  predicate ProxyReady(config: Value, registry: Vars) {
    && "url" in registry && ProxyIsMapping(config)
    && "username" in registry
    && (registry["username"] != "" ==> "password" in registry)
    && "ttl" in registry
  }

  /** What lines 107-108 need of the template: a `redis` key whose section,
      once interpolated, is a mapping or falsy. */
  predicate RedisReady(config: Value, registry: Vars) {
    && config.Mapping? && "redis" in Keys(config.entries)
    && var section := Lookup(config.entries, "redis").value;
       || section.Mapping?
       || (Interpolate(section, registry).Ok? && !Truthy(Interpolate(section, registry).value))
  }

  /** `create_registry_config` succeeds exactly when the registry has the
      fields the proxy writes read, every string of the written template
      formats against the registry, and the `redis` section can take the slot. */
  lemma CreateRegistryConfigOkIff(config: Value, registry: Vars, db: int)
    ensures CreateRegistryConfig(config, registry, db).Ok? <==>
              && ProxyReady(config, registry)
              && (forall s :: s in Leaves(SetProxyFields(config, registry).value) ==> Format(s, registry).Ok?)
              && RedisReady(config, registry)
  {
    StagesOkIff(config, registry, db);
    if ProxyReady(config, registry) {
      var prepared := SetProxyFields(config, registry).value;
      RedisOutsideProxy();
      ProxyRestUnchanged(config, registry, ["redis"]);
      LaterStagesOkIff(config, prepared, registry, db);
    }
  }

  /** Interpolating a written template and assigning the slot succeed
      exactly when its strings format and `redis` is ready. */
  lemma LaterStagesOkIff(config: Value, prepared: Value, registry: Vars, db: int)
    requires config.Mapping? && prepared.Mapping? && Keys(prepared.entries) == Keys(config.entries)
    requires At(prepared, ["redis"]) == At(config, ["redis"])
    ensures (Interpolate(prepared, registry).Ok? && AssignSlot(Interpolate(prepared, registry).value, db).Ok?) <==>
            (forall s :: s in Leaves(prepared) ==> Format(s, registry).Ok?) && RedisReady(config, registry)
  {
    InterpolateOkIff(prepared, registry);
    if Interpolate(prepared, registry).Ok? {
      var v := Interpolate(prepared, registry).value;
      if "redis" in Keys(config.entries) {
        SlotOkIff(config, prepared, registry, db);
      } else {
        assert Keys(v.entries) == Keys(prepared.entries);
        assert "redis" !in Keys(v.entries);
        assert AssignSlot(v, db).Err?;
        assert !RedisReady(config, registry);
      }
    }
  }

  /** The call succeeds exactly when each of its three stages does. */
  lemma StagesOkIff(config: Value, registry: Vars, db: int)
    ensures CreateRegistryConfig(config, registry, db).Ok? <==>
              && SetProxyFields(config, registry).Ok?
              && Interpolate(SetProxyFields(config, registry).value, registry).Ok?
              && AssignSlot(Interpolate(SetProxyFields(config, registry).value, registry).value, db).Ok?
  {
  }

  /** The slot assignment succeeds exactly when the template's `redis`
      section is ready for it. */
  lemma SlotOkIff(config: Value, prepared: Value, registry: Vars, db: int)
    requires config.Mapping? && "redis" in Keys(config.entries)
    requires At(prepared, ["redis"]) == At(config, ["redis"])
    requires Interpolate(prepared, registry).Ok?
    ensures AssignSlot(Interpolate(prepared, registry).value, db).Ok? <==> RedisReady(config, registry)
  {
    RedisSection(config, prepared, registry);
    assert At(config, ["redis"]) == Lookup(config.entries, "redis") by {
      assert ["redis"][1..] == [];
    }
  }

  /** Writing one string into the proxy section adds only that string. */
  lemma FieldLeaves(c: Value, k: string, x: string, s: string)
    requires ProxyIsMapping(c)
    requires s in Leaves(SetProxyField(c, k, Str(x)))
    ensures s in Leaves(c) || s == x
  {
    WritableProxy(c, k);
    LeavesSetAt(c, ["proxy", k], Str(x), s);
  }

  /** The credentials add only the registry's username and password. */
  lemma CredentialsLeaves(c: Value, registry: Vars, c2: Value, s: string)
    requires ProxyIsMapping(c) && "username" in registry
    requires Credentials(c, registry, registry["username"]) == Ok(c2)
    requires s in Leaves(c2)
    ensures s in Leaves(c) || s == registry["username"] || ("password" in registry && s == registry["password"])
  {
    if HasCredentials(registry) {
      var c1 := SetProxyField(c, "username", Str(registry["username"]));
      assert c2 == SetProxyField(c1, "password", Str(registry["password"]));
      FieldLeaves(c1, "password", registry["password"], s);
      if s in Leaves(c1) {
        FieldLeaves(c, "username", registry["username"], s);
      }
    }
  }

  /** The written template holds the template's strings and the registry
      fields written into it, and nothing else. */
  lemma PreparedLeaves(config: Value, registry: Vars, s: string)
    requires SetProxyFields(config, registry).Ok?
    requires s in Leaves(SetProxyFields(config, registry).value)
    ensures "url" in registry && "username" in registry && "ttl" in registry
    ensures || s in Leaves(config)
            || s == registry["url"] || s == registry["username"] || s == registry["ttl"]
            || ("password" in registry && s == registry["password"])
  {
    ProxyWrites(config, registry);
    PreparedLeavesOf(config, registry, SetProxyFields(config, registry).value, s);
  }

  lemma PreparedLeavesOf(config: Value, registry: Vars, r: Value, s: string)
    requires PreparedBy(config, registry, r) && s in Leaves(r)
    ensures || s in Leaves(config)
            || s == registry["url"] || s == registry["username"] || s == registry["ttl"]
            || ("password" in registry && s == registry["password"])
  {
    var c1 := SetProxyField(config, "remoteurl", Str(registry["url"]));
    var c2 := Credentials(c1, registry, registry["username"]).value;
    var inC2 := s in Leaves(c2);
    if registry["ttl"] != "" {
      FieldLeaves(c2, "ttl", registry["ttl"], s);
    }
    if inC2 {
      CredentialsLeaves(c1, registry, c2, s);
      if s in Leaves(c1) {
        FieldLeaves(config, "remoteurl", registry["url"], s);
      }
    }
  }

  /** A sufficient condition in terms of the inputs alone: the registry has
      the fields the proxy writes read, every string of the template and
      every registry field formats, and `redis` is a mapping or a falsy
      non-string. */
  lemma CreateRegistryConfigSucceeds(config: Value, registry: Vars, db: int)
    requires ProxyReady(config, registry)
    requires config.Mapping? && "redis" in Keys(config.entries)
    requires var section := Lookup(config.entries, "redis").value;
      section.Mapping? || (!section.Str? && !Truthy(section))
    requires forall s :: s in Leaves(config) ==> Format(s, registry).Ok?
    requires forall k :: k in registry ==> Format(registry[k], registry).Ok?
    ensures CreateRegistryConfig(config, registry, db).Ok?
  {
    var prepared := SetProxyFields(config, registry).value;
    forall s | s in Leaves(prepared)
      ensures Format(s, registry).Ok?
    {
      PreparedLeaves(config, registry, s);
    }
    var section := Lookup(config.entries, "redis").value;
    if !section.Mapping? {
      assert Leaves(section) == [];
      InterpolateOkIff(section, registry);
      TruthinessKept(section, registry);
    }
    CreateRegistryConfigOkIff(config, registry, db);
  }

  /** The base template of the test suite's cache example. */
  function ExampleBase(): Value {
    Mapping([Entry("proxy", Mapping([])), Entry("redis", Mapping([]))])
  }

  /** The registry of the test suite's cache example. */
  function ExampleRegistry(): Vars {
    map["type" := "cache", "url" := "https://example.com", "username" := "user",
        "password" := "pass", "ttl" := "24h", "name" := "example"]
  }

  /** The test suite's cache example, slot 2: the call succeeds and writes
      the four proxy fields verbatim. The empty `redis` section is falsy, so
      it stays empty and gets no `db`. */
  lemma CacheRegistryExample()
    ensures var r := CreateRegistryConfig(ExampleBase(), ExampleRegistry(), 2);
      && r.Ok?
      && At(r.value, ["proxy", "remoteurl"]) == Some(Str("https://example.com"))
      && At(r.value, ["proxy", "username"]) == Some(Str("user"))
      && At(r.value, ["proxy", "password"]) == Some(Str("pass"))
      && At(r.value, ["proxy", "ttl"]) == Some(Str("24h"))
      && At(r.value, ["redis"]) == Some(Mapping([]))
      && At(r.value, ["redis", "db"]).None?
  {
    var config := ExampleBase();
    var registry := ExampleRegistry();
    ExampleReady();
    ExampleFieldsVerbatim();
    CreateRegistryConfigSucceeds(config, registry, 2);
    WrittenVerbatim(config, registry, 2);
    EmptyRedisSectionUntouched(config, registry, 2);
    ExampleValues();
  }

  /** The test suite's cache registry builds with any slot. */
  lemma CacheRegistryBuilds(db: int)
    ensures CreateRegistryConfig(ExampleBase(), ExampleRegistry(), db).Ok?
  {
    ExampleReady();
    ExampleFieldsVerbatim();
    CreateRegistryConfigSucceeds(ExampleBase(), ExampleRegistry(), db);
  }

  /** With both credentials and a TTL, and fields free of placeholders, the
      four proxy fields hold the registry's values as they are. */
  lemma WrittenVerbatim(config: Value, registry: Vars, db: int)
    requires CreateRegistryConfig(config, registry, db).Ok?
    requires HasCredentials(registry) && "ttl" in registry && registry["ttl"] != ""
    requires forall k :: k in registry ==> Format(registry[k], registry) == Ok(registry[k])
    ensures var r := CreateRegistryConfig(config, registry, db).value;
      && At(r, ["proxy", "remoteurl"]) == Some(Str(registry["url"]))
      && At(r, ["proxy", "username"]) == Some(Str(registry["username"]))
      && At(r, ["proxy", "password"]) == Some(Str(registry["password"]))
      && At(r, ["proxy", "ttl"]) == Some(Str(registry["ttl"]))
  {
    RemoteUrlAlwaysSet(config, registry, db);
    CredentialsOnlyAsPair(config, registry, db);
    TtlOnlyWhenNonEmpty(config, registry, db);
  }

  lemma ExampleValues()
    ensures ExampleRegistry()["url"] == "https://example.com"
    ensures ExampleRegistry()["username"] == "user" && ExampleRegistry()["password"] == "pass"
    ensures ExampleRegistry()["ttl"] == "24h"
  {
  }

  lemma ExampleReady()
    ensures ProxyReady(ExampleBase(), ExampleRegistry()) && HasCredentials(ExampleRegistry())
    ensures ExampleRegistry()["ttl"] != ""
    ensures "redis" in Keys(ExampleBase().entries) && Lookup(ExampleBase().entries, "redis") == Some(Mapping([]))
    ensures At(ExampleBase(), ["redis"]) == Some(Mapping([]))
    ensures Leaves(ExampleBase()) == []
  {
    var es := ExampleBase().entries;
    assert "proxy" != "redis";
    assert es[1..][1..] == [];
    assert ["redis"][1..] == [];
  }

  /** Every field of the example registry is brace-free, so it formats to itself. */
  lemma ExampleFieldsVerbatim()
    ensures forall k :: k in ExampleRegistry() ==> Format(ExampleRegistry()[k], ExampleRegistry()) == Ok(ExampleRegistry()[k])
  {
    var registry := ExampleRegistry();
    forall k | k in registry
      ensures BraceFree(registry[k])
    {
      var v := registry[k];
      assert v in ["cache", "https://example.com", "user", "pass", "24h", "example"];
      forall i | 0 <= i < |v|
        ensures v[i] != '{' && v[i] != '}'
      {
        assert v[i] in "cahestp:/xml.ouri24";
      }
    }
  }
}

=== FILE: templates.dfy ===
/**
 The string templates the generator fills in with `str.format_map`
 (functions.py line 21), restricted to the part of Python's format language
 the configuration files use: `{name}` replacement fields, and `{{` / `}}`
 for literal braces.

 `Format` follows CPython's scanner: it walks the text left to right, copies
 literal characters, and replaces each field as soon as it has read it, so
 the first problem met in reading order is the error raised. Substituted text
 is appended to the output and never scanned again.

 The partner definitions are `Parse` (text to pieces), `Render` (pieces to
 text) and `Unparse` (pieces back to template text); the lemmas below show
 that `Format` is exactly parse-then-render and that `Parse` and `Unparse`
 are inverse.
 */
module Templates {
  import opened Errors

  /** A variable map: the registry's fields by name. */
  type Vars = map<string, string>

  predicate BraceFree(s: string) {
    forall i :: 0 <= i < |s| ==> s[i] != '{' && s[i] != '}'
  }

  predicate IsDigit(c: char) {
    '0' <= c <= '9'
  }

  /** The field names the model supports: non-empty, not an all-digit
      positional index, and free of the characters that start an attribute,
      index, conversion or format spec (and of braces). */
  predicate PlainName(n: string) {
    && |n| > 0
    && (forall i :: 0 <= i < |n| ==> n[i] !in ".[!:{}")
    && (exists i :: 0 <= i < |n| && !IsDigit(n[i]))
  }

  /** The position of the first `}` at or after `i`, or `|s|` if there is none. */
  function CloseAt(s: string, i: nat): (j: nat)
    requires i <= |s|
    ensures i <= j <= |s|
    ensures j < |s| ==> s[j] == '}'
    ensures forall k :: i <= k < j ==> s[k] != '}'
    decreases |s| - i
  {
    if i == |s| || s[i] == '}' then i else CloseAt(s, i + 1)
  }

  /** One piece of a template: a literal character or a replacement field. */
  datatype Piece = Lit(c: char) | Field(name: string)

  /** What one scanning step finds at the front of the text: the end, an
      error, or a piece followed by the rest of the text from `next`. */
  datatype Step = Done | Bad(error: Error) | Emit(piece: Piece, next: nat)

  /** Reads one piece from the front of `s`: a doubled brace is a literal
      brace, a lone `}` is an error, a `{` opens a field that runs to the
      first `}`, any other character is itself. */
  function Scan(s: string): (st: Step)
    ensures st.Done? <==> s == []
    ensures st.Emit? ==> 0 < st.next <= |s|
  {
    if s == [] then Done
    else if |s| > 1 && (s[0] == '{' || s[0] == '}') && s[1] == s[0] then Emit(Lit(s[0]), 2)
    else if s[0] == '}' then Bad(UnmatchedBrace)
    else if s[0] == '{' then
      var j := CloseAt(s, 1);
      if j == |s| then Bad(UnmatchedBrace)
      else if !PlainName(s[1..j]) then Bad(UnsupportedField(s[1..j]))
      else Emit(Field(s[1..j]), j + 1)
    else Emit(Lit(s[0]), 1)
  }

  /** The text one piece contributes once substituted. */
  function PieceValue(p: Piece, vars: Vars): Result<string> {
    match p
    case Lit(c) => Ok([c])
    case Field(n) => if n in vars then Ok(vars[n]) else Err(MissingVariable(n))
  }

  /** `s.format_map(vars)`: each piece is substituted as soon as it is read. */
  function Format(s: string, vars: Vars): (r: Result<string>)
    ensures BraceFree(s) ==> r == Ok(s)
    decreases |s|
  {
    match Scan(s)
    case Done => Ok([])
    case Bad(e) => Err(e)
    case Emit(p, k) =>
      var head :- PieceValue(p, vars);
      var rest :- Format(s[k..], vars);
      assert BraceFree(s) ==> k == 1 && head == [s[0]] && BraceFree(s[1..]) && s == [s[0]] + s[1..];
      Ok(head + rest)
  }

  /** Every field of the pieces has a supported name. */
  predicate Supported(ps: seq<Piece>) {
    forall i :: 0 <= i < |ps| ==> ps[i].Field? ==> PlainName(ps[i].name)
  }

  /** Every field of the pieces names a variable of `vars`. */
  predicate Bound(ps: seq<Piece>, vars: Vars) {
    forall i :: 0 <= i < |ps| ==> ps[i].Field? ==> ps[i].name in vars
  }

  /** Splits a template into pieces, with the same error conditions on
      braces and field names as `Format`. */
  function Parse(s: string): (r: Result<seq<Piece>>)
    decreases |s|
  {
    match Scan(s)
    case Done => Ok([])
    case Bad(e) => Err(e)
    case Emit(p, k) =>
      var rest :- Parse(s[k..]);
      Ok([p] + rest)
  }

  /** Substitutes the pieces left to right, failing at the first unbound field. */
  function Render(ps: seq<Piece>, vars: Vars): Result<string> {
    if ps == [] then Ok([])
    else
      var head :- PieceValue(ps[0], vars);
      var rest :- Render(ps[1..], vars);
      Ok(head + rest)
  }

  /** The template text of one piece: literal braces are doubled. */
  function PieceText(p: Piece): string {
    match p
    case Lit(c) => if c == '{' || c == '}' then [c, c] else [c]
    case Field(n) => "{" + n + "}"
  }

  /** Writes pieces back as template text. */
  function Unparse(ps: seq<Piece>): string {
    if ps == [] then [] else PieceText(ps[0]) + Unparse(ps[1..])
  }

  /** The template whose rendering is `s` itself under any variable map. */
  function Escape(s: string): string {
    Unparse(Literals(s))
  }

  function Literals(s: string): (ps: seq<Piece>)
    ensures |ps| == |s|
    ensures forall i :: 0 <= i < |s| ==> ps[i] == Lit(s[i])
  {
    seq(|s|, i requires 0 <= i < |s| => Lit(s[i]))
  }

  /** `CloseAt` finds the first closing brace. */
  lemma CloseAtFirst(s: string, i: nat, j: nat)
    requires i <= j < |s| && s[j] == '}'
    requires forall k :: i <= k < j ==> s[k] != '}'
    ensures CloseAt(s, i) == j
    decreases j - i
  {
    if i < j {
      CloseAtFirst(s, i + 1, j);
    }
  }

  /** Scanning the text of a supported piece, whatever follows it, reads
      back exactly that piece. */
  lemma ScanPieceText(p: Piece, t: string)
    requires p.Field? ==> PlainName(p.name)
    ensures Scan(PieceText(p) + t) == Emit(p, |PieceText(p)|)
  {
    var s := PieceText(p) + t;
    match p
    case Lit(c) =>
    case Field(n) =>
      var j := |n| + 1;
      assert s[1..j] == n;
      assert s[j] == '}';
      assert s[1] == n[0];
      forall k | 1 <= k < j
        ensures s[k] != '}'
      {
        assert s[k] == n[k - 1];
      }
      CloseAtFirst(s, 1, j);
  }

  /** What a scanning step consumes is the text of the piece it emits. */
  lemma ScanConsumesPieceText(s: string)
    requires Scan(s).Emit?
    ensures s[..Scan(s).next] == PieceText(Scan(s).piece)
    ensures Scan(s).piece.Field? ==> PlainName(Scan(s).piece.name)
  {
    var k := Scan(s).next;
    if s[0] == '{' && !(|s| > 1 && s[1] == '{') {
      assert s[..k] == "{" + s[1..k - 1] + "}";
    }
  }

  lemma SupportedCons(p: Piece, ps: seq<Piece>)
    requires Supported(ps)
    requires p.Field? ==> PlainName(p.name)
    ensures Supported([p] + ps)
  {
    forall i | 0 <= i < |[p] + ps| && ([p] + ps)[i].Field?
      ensures PlainName(([p] + ps)[i].name)
    {
      if i > 0 {
        assert ([p] + ps)[i] == ps[i - 1];
      }
    }
  }

  lemma SupportedTail(ps: seq<Piece>)
    requires ps != [] && Supported(ps)
    ensures Supported(ps[1..])
  {
    forall i | 0 <= i < |ps[1..]| && ps[1..][i].Field?
      ensures PlainName(ps[1..][i].name)
    {
      assert ps[1..][i] == ps[i + 1];
    }
  }

  /** Parsing past the text of one supported piece. */
  lemma ParseAfterPiece(p: Piece, t: string)
    requires p.Field? ==> PlainName(p.name)
    ensures Parse(PieceText(p) + t)
         == match Parse(t)
            case Ok(rest) => Ok([p] + rest)
            case Err(e) => Err(e)
  {
    ScanPieceText(p, t);
    assert (PieceText(p) + t)[|PieceText(p)|..] == t;
  }

  /** Parsing the text written for supported pieces gives back the pieces. */
  lemma {:induction false} ParseUnparse(ps: seq<Piece>)
    requires Supported(ps)
    ensures Parse(Unparse(ps)) == Ok(ps)
    decreases |ps|
  {
    if ps != [] {
      SupportedTail(ps);
      ParseUnparse(ps[1..]);
      ParseUnparseCons(ps[0], ps[1..]);
      assert [ps[0]] + ps[1..] == ps;
    }
  }

  lemma ParseUnparseCons(p: Piece, rest: seq<Piece>)
    requires p.Field? ==> PlainName(p.name)
    requires Parse(Unparse(rest)) == Ok(rest)
    ensures Parse(Unparse([p] + rest)) == Ok([p] + rest)
  {
    assert Unparse([p] + rest) == PieceText(p) + Unparse(rest) by {
      assert ([p] + rest)[1..] == rest;
    }
    ParseAfterPiece(p, Unparse(rest));
  }

  /** Every template that parses is the text of its pieces. */
  lemma {:induction false} UnparseParse(s: string)
    requires Parse(s).Ok?
    ensures Supported(Parse(s).value)
    ensures Unparse(Parse(s).value) == s
    decreases |s|
  {
    if s != [] {
      ParseStep(s);
      var k := Scan(s).next;
      var p := Scan(s).piece;
      var rest := Parse(s[k..]).value;
      UnparseParse(s[k..]);
      ScanConsumesPieceText(s);
      UnparseJoin(s, k, p, rest);
    }
  }

  /** A text made of a piece's text and the text of further pieces. */
  lemma UnparseJoin(s: string, k: nat, p: Piece, rest: seq<Piece>)
    requires k <= |s| && s[..k] == PieceText(p) && Unparse(rest) == s[k..]
    requires Supported(rest) && (p.Field? ==> PlainName(p.name))
    ensures Supported([p] + rest) && Unparse([p] + rest) == s
  {
    SupportedCons(p, rest);
    UnparseCons(p, rest);
    assert s == s[..k] + s[k..];
  }

  /** A template that parses starts with a piece, and its pieces are that
      piece followed by those of the rest of the text. */
  lemma ParseStep(s: string)
    requires s != [] && Parse(s).Ok?
    ensures Scan(s).Emit? && Parse(s[Scan(s).next..]).Ok?
    ensures Parse(s).value == [Scan(s).piece] + Parse(s[Scan(s).next..]).value
  {
  }

  lemma UnparseCons(p: Piece, rest: seq<Piece>)
    ensures Unparse([p] + rest) == PieceText(p) + Unparse(rest)
  {
    assert ([p] + rest)[1..] == rest;
  }

  /** `Format` is parse-then-render: on a template that parses it gives
      exactly the rendering of its pieces, and on one that does not it fails. */
  lemma {:induction false} FormatIsParseThenRender(s: string, vars: Vars)
    ensures Parse(s).Ok? ==> Format(s, vars) == Render(Parse(s).value, vars)
    ensures Parse(s).Err? ==> Format(s, vars).Err?
    decreases |s|
  {
    if Scan(s).Emit? {
      var k := Scan(s).next;
      FormatIsParseThenRender(s[k..], vars);
      if Parse(s).Ok? {
        var ps := Parse(s).value;
        assert ps[0] == Scan(s).piece;
        assert ps[1..] == Parse(s[k..]).value;
      }
    }
  }

  /** Rendering succeeds exactly when every field names a variable. */
  lemma {:induction false} RenderOkIff(ps: seq<Piece>, vars: Vars)
    ensures Render(ps, vars).Ok? <==> Bound(ps, vars)
    decreases |ps|
  {
    if ps != [] {
      RenderOkIff(ps[1..], vars);
      if Bound(ps, vars) {
        forall i | 0 <= i < |ps[1..]| && ps[1..][i].Field?
          ensures ps[1..][i].name in vars
        {
          assert ps[1..][i] == ps[i + 1];
        }
      }
      if Bound(ps[1..], vars) && (ps[0].Field? ==> ps[0].name in vars) {
        forall i | 0 <= i < |ps| && ps[i].Field?
          ensures ps[i].name in vars
        {
          if i > 0 {
            assert ps[i] == ps[1..][i - 1];
          }
        }
      }
    }
  }

  /** A template formats without error exactly when it is well formed and
      every placeholder in it names a variable of the map. */
  lemma FormatOkIff(s: string, vars: Vars)
    ensures Format(s, vars).Ok? <==> Parse(s).Ok? && Bound(Parse(s).value, vars)
  {
    FormatIsParseThenRender(s, vars);
    if Parse(s).Ok? {
      RenderOkIff(Parse(s).value, vars);
    }
  }

  /** Writing pieces as a template and formatting it substitutes every field
      exactly: the result is the rendering of the pieces. */
  lemma FormatUnparse(ps: seq<Piece>, vars: Vars)
    requires Supported(ps)
    ensures Format(Unparse(ps), vars) == Render(ps, vars)
  {
    ParseUnparse(ps);
    FormatIsParseThenRender(Unparse(ps), vars);
  }

  lemma {:induction false} RenderLiterals(s: string, vars: Vars)
    ensures Render(Literals(s), vars) == Ok(s)
    decreases |s|
  {
    if s != [] {
      assert Literals(s)[1..] == Literals(s[1..]);
      RenderLiterals(s[1..], vars);
      assert s == [s[0]] + s[1..];
    }
  }

  /** Doubled braces are literal braces: the escaped text of `s` formats to
      `s` under every variable map. */
  lemma EscapeRoundTrip(s: string, vars: Vars)
    ensures Format(Escape(s), vars) == Ok(s)
  {
    FormatUnparse(Literals(s), vars);
    RenderLiterals(s, vars);
  }

  /** Formatting a supported piece's text followed by more text: the piece's
      value, then the rest, failing at the first error in that order. */
  lemma FormatPieceThen(p: Piece, t: string, vars: Vars)
    requires p.Field? ==> PlainName(p.name)
    ensures PieceValue(p, vars).Err? ==> Format(PieceText(p) + t, vars) == Err(PieceValue(p, vars).error)
    ensures PieceValue(p, vars).Ok? && Format(t, vars).Err? ==> Format(PieceText(p) + t, vars) == Format(t, vars)
    ensures PieceValue(p, vars).Ok? && Format(t, vars).Ok? ==>
              Format(PieceText(p) + t, vars) == Ok(PieceValue(p, vars).value + Format(t, vars).value)
  {
    ScanPieceText(p, t);
    assert (PieceText(p) + t)[|PieceText(p)|..] == t;
  }

  /** A lone `{name}` becomes the variable's value verbatim, whatever braces
      that value holds (no re-expansion), or fails naming the variable. */
  lemma FormatPlaceholder(n: string, vars: Vars)
    requires PlainName(n)
    ensures n in vars ==> Format("{" + n + "}", vars) == Ok(vars[n])
    ensures n !in vars ==> Format("{" + n + "}", vars) == Err(MissingVariable(n))
  {
    FormatPieceThen(Field(n), [], vars);
    assert PieceText(Field(n)) + [] == "{" + n + "}";
    assert Format([], vars) == Ok([]);
    assert n in vars ==> vars[n] + [] == vars[n];
  }

  /** The shape of the test suite's example (`"{var1} {var2}"` with `foo`
      and `bar` gives `"foo bar"`), for any two bound names. */
  lemma TwoPlaceholders(a: string, b: string, vars: Vars)
    requires PlainName(a) && PlainName(b)
    requires a in vars && b in vars
    ensures Format(("{" + a + "}") + (" {" + b + "}"), vars) == Ok(vars[a] + " " + vars[b])
  {
    var tail := " {" + b + "}";
    SpaceThenPlaceholder(b, vars);
    FormatPieceThen(Field(a), tail, vars);
    assert Format(PieceText(Field(a)) + tail, vars) == Ok(vars[a] + (" " + vars[b]));
    assert vars[a] + (" " + vars[b]) == vars[a] + " " + vars[b];
  }

  lemma SpaceThenPlaceholder(b: string, vars: Vars)
    requires PlainName(b) && b in vars
    ensures Format(" {" + b + "}", vars) == Ok(" " + vars[b])
  {
    var second := "{" + b + "}";
    FormatPlaceholder(b, vars);
    FormatPieceThen(Lit(' '), second, vars);
    assert PieceText(Lit(' ')) + second == " {" + b + "}";
  }

  /** A `}` that is not doubled, or a `{` that ends the text, is an error. */
  lemma {:induction false} UnmatchedBraceFails(p: string, q: string, vars: Vars)
    requires BraceFree(p)
    requires q == [] || q[0] != '}'
    ensures Format(p + "}" + q, vars) == Err(UnmatchedBrace)
    ensures Format(p + "{", vars) == Err(UnmatchedBrace)
    decreases |p|
  {
    if p != [] {
      UnmatchedBraceFails(p[1..], q, vars);
      assert (p + "}" + q)[1..] == p[1..] + "}" + q;
      assert (p + "{")[1..] == p[1..] + "{";
    } else {
      assert p + "{" == "{";
      assert p + "}" + q == "}" + q;
      assert CloseAt("{", 1) == 1;
    }
  }
}

=== FILE: values.dfy ===
/**
 The YAML-like documents the generator reads, edits and writes: strings,
 mappings with insertion-ordered string keys, lists, and the other scalars
 (integers, booleans, null).

 Mappings are sequences of entries rather than Dafny maps because Python
 dictionaries keep insertion order in memory, and the order in which the
 generator walks a mapping decides which error it raises first. The
 operations here are the
 dictionary primitives the Python code relies on: lookup (`d[k]`), in-place
 assignment (`d[k] = v`, which keeps an existing key's position and appends a
 new key), nested assignment (`d[a][b] = v`) and truthiness.
 */
module Values {
  import opened Errors

  datatype Value =
    | Str(s: string)
    | Mapping(entries: seq<Entry>)
    | List(items: seq<Value>)
    | Int(i: int)
    | Bool(b: bool)
    | Null

  datatype Entry = Entry(key: string, val: Value)

  /** The keys of a mapping, in order. */
  function Keys(es: seq<Entry>): (ks: seq<string>)
    ensures |ks| == |es|
    ensures forall i :: 0 <= i < |es| ==> ks[i] == es[i].key
  {
    if es == [] then [] else [es[0].key] + Keys(es[1..])
  }

  /** No key occurs twice (every dictionary the YAML loader builds satisfies this). */
  predicate UniqueKeys(es: seq<Entry>) {
    forall i, j :: 0 <= i < j < |es| ==> es[i].key != es[j].key
  }

  /** The value stored under `k`, or None when `k` is not a key. */
  function Lookup(es: seq<Entry>, k: string): (r: Option<Value>)
    ensures r.Some? <==> k in Keys(es)
  {
    if es == [] then None
    else if es[0].key == k then Some(es[0].val)
    else Lookup(es[1..], k)
  }

  /** Dictionary assignment `d[k] := v`: an existing key keeps its position
      and gets the new value, a new key is appended at the end. */
  function Put(es: seq<Entry>, k: string, v: Value): (r: seq<Entry>)
    ensures Lookup(r, k) == Some(v)
    ensures forall k' :: k' != k ==> Lookup(r, k') == Lookup(es, k')
    ensures Keys(r) == if k in Keys(es) then Keys(es) else Keys(es) + [k]
  {
    if es == [] then [Entry(k, v)]
    else
      assert [es[0]] + es[1..] == es;
      if es[0].key == k then
        ConsFacts(es[0], es[1..]);
        ConsFacts(Entry(k, v), es[1..]);
        [Entry(k, v)] + es[1..]
      else
        var rest := Put(es[1..], k, v);
        PutCons(es[0], es[1..], rest, k, v);
        [es[0]] + rest
  }

  /** Keys and lookups of a mapping that starts with entry `e`. */
  lemma ConsFacts(e: Entry, rest: seq<Entry>)
    ensures Keys([e] + rest) == [e.key] + Keys(rest)
    ensures forall k :: Lookup([e] + rest, k) == if e.key == k then Some(e.val) else Lookup(rest, k)
  {
    assert ([e] + rest)[1..] == rest;
  }

  /** An assignment past a first entry with another key. */
  lemma PutCons(e: Entry, rest: seq<Entry>, rest': seq<Entry>, k: string, v: Value)
    requires e.key != k
    requires Lookup(rest', k) == Some(v)
    requires forall k' :: k' != k ==> Lookup(rest', k') == Lookup(rest, k')
    requires Keys(rest') == if k in Keys(rest) then Keys(rest) else Keys(rest) + [k]
    ensures Lookup([e] + rest', k) == Some(v)
    ensures forall k' :: k' != k ==> Lookup([e] + rest', k') == Lookup([e] + rest, k')
    ensures Keys([e] + rest') == if k in Keys([e] + rest) then Keys([e] + rest) else Keys([e] + rest) + [k]
  {
    ConsFacts(e, rest);
    ConsFacts(e, rest');
    assert k in Keys([e] + rest) <==> k in Keys(rest);
    if k !in Keys(rest) {
      assert [e.key] + (Keys(rest) + [k]) == ([e.key] + Keys(rest)) + [k];
    }
  }

  /** Python truthiness: empty strings, mappings and lists, zero, false and
      null are falsy. */
  predicate Truthy(v: Value) {
    match v
    case Str(s) => |s| > 0
    case Mapping(es) => |es| > 0
    case List(xs) => |xs| > 0
    case Int(i) => i != 0
    case Bool(b) => b
    case Null => false
  }

  /** Subscript `v[k]`: a KeyError when the mapping lacks `k`, a TypeError
      when `v` is not a mapping at all. */
  function Select(v: Value, k: string): (r: Result<Value>)
    ensures r.Ok? <==> v.Mapping? && k in Keys(v.entries)
    ensures r.Ok? ==> Lookup(v.entries, k) == Some(r.value)
    ensures r.Err? && v.Mapping? ==> r.error == MissingKey(k)
  {
    match v
    case Mapping(es) =>
      (match Lookup(es, k)
       case Some(c) => Ok(c)
       case None => Err(MissingKey(k)))
    case _ => Err(NotAMapping(k))
  }

  /** The value reached by following the keys of `path` from `v`, if every
      step is a mapping that holds the next key. */
  function At(v: Value, path: seq<string>): Option<Value>
    decreases |path|
  {
    if path == [] then Some(v)
    else match v
      case Mapping(es) =>
        (match Lookup(es, path[0])
         case Some(c) => At(c, path[1..])
         case None => None)
      case _ => None
  }

  /** Two key paths that differ at some position both of them have: neither
      is a prefix of the other, so writing at one never touches the other. */
  predicate Diverge(p: seq<string>, q: seq<string>)
    decreases |p|
  {
    |p| > 0 && |q| > 0 && (p[0] != q[0] || Diverge(p[1..], q[1..]))
  }

  /** Every proper prefix of `path` leads from `v` to a mapping, which is what
      a nested assignment `v[p0]…[pn-2][pn-1] = x` needs to succeed. */
  predicate Writable(v: Value, path: seq<string>) {
    forall i :: 0 <= i < |path| ==> At(v, path[..i]).Some? && At(v, path[..i]).value.Mapping?
  }

  lemma AtStep(v: Value, path: seq<string>, i: nat, child: Value)
    requires v.Mapping? && 0 < |path| && i < |path|
    requires Lookup(v.entries, path[0]) == Some(child)
    ensures At(v, path[..i + 1]) == At(child, path[1..][..i])
  {
    assert path[..i + 1][0] == path[0];
    assert path[..i + 1][1..] == path[1..][..i];
  }

  /** Nested assignment `v[path[0]]…[path[n-1]] = x`, evaluated as Python
      does: each intermediate lookup must find a mapping holding the key, and
      the last step assigns (or adds) the final key. */
  function SetAt(v: Value, path: seq<string>, x: Value): (r: Result<Value>)
    requires |path| > 0
    ensures r.Ok? <==> Writable(v, path)
    ensures r.Ok? ==> At(r.value, path) == Some(x)
    ensures r.Ok? ==> Writable(r.value, path)
    ensures r.Ok? ==> forall p :: Diverge(p, path) ==> At(r.value, p) == At(v, p)
    ensures r.Ok? && |path| > 1 ==> r.value.Mapping? && Keys(r.value.entries) == Keys(v.entries)
    decreases |path|
  {
    if !v.Mapping? then
      assert path[..0] == [];
      Err(NotAMapping(path[0]))
    else if |path| == 1 then
      var r := Mapping(Put(v.entries, path[0], x));
      assert path[..0] == [];
      assert At(r, path) == At(x, path[1..]);
      SetAtOneFacts(v, path[0], x);
      Ok(r)
    else
      match Lookup(v.entries, path[0])
      case None =>
        assert path[..1] == [path[0]];
        Err(MissingKey(path[0]))
      case Some(child) =>
        var c := SetAt(child, path[1..], x);
        WritableStep(v, path, child);
        if c.Err? then Err(c.error)
        else
          var r := Mapping(Put(v.entries, path[0], c.value));
          SetAtDeepFacts(v, path, child, c.value, x);
          Ok(r)
  }

  lemma SetAtOneFacts(v: Value, k: string, x: Value)
    requires v.Mapping?
    ensures forall p :: Diverge(p, [k]) ==> At(Mapping(Put(v.entries, k, x)), p) == At(v, p)
    ensures Writable(Mapping(Put(v.entries, k, x)), [k])
  {
    var r := Mapping(Put(v.entries, k, x));
    forall p | Diverge(p, [k])
      ensures At(r, p) == At(v, p)
    {
      assert [k][1..] == [];
      assert !Diverge(p[1..], []);
      assert p[0] != k;
      AtPut(v.entries, k, x, p);
    }
    forall i | 0 <= i < 1
      ensures At(r, [k][..i]).Some? && At(r, [k][..i]).value.Mapping?
    {
      assert [k][..i] == [];
    }
  }

  /** A nested path is writable exactly when the head key leads to a child
      from which the rest of the path is writable. */
  lemma WritableStep(v: Value, path: seq<string>, child: Value)
    requires v.Mapping? && |path| > 1
    requires Lookup(v.entries, path[0]) == Some(child)
    ensures Writable(v, path) <==> Writable(child, path[1..])
  {
    if Writable(child, path[1..]) {
      forall i | 0 <= i < |path|
        ensures At(v, path[..i]).Some? && At(v, path[..i]).value.Mapping?
      {
        if i == 0 {
          assert path[..0] == [];
        } else {
          AtStep(v, path, i - 1, child);
        }
      }
    }
    if Writable(v, path) {
      forall i | 0 <= i < |path[1..]|
        ensures At(child, path[1..][..i]).Some? && At(child, path[1..][..i]).value.Mapping?
      {
        AtStep(v, path, i, child);
      }
    }
  }

  lemma SetAtDeepFacts(v: Value, path: seq<string>, child: Value, c: Value, x: Value)
    requires v.Mapping? && |path| > 1
    requires Lookup(v.entries, path[0]) == Some(child)
    requires At(c, path[1..]) == Some(x)
    requires Writable(c, path[1..])
    requires forall p :: Diverge(p, path[1..]) ==> At(c, p) == At(child, p)
    ensures At(Mapping(Put(v.entries, path[0], c)), path) == Some(x)
    ensures Writable(Mapping(Put(v.entries, path[0], c)), path)
    ensures forall p :: Diverge(p, path) ==> At(Mapping(Put(v.entries, path[0], c)), p) == At(v, p)
  {
    var r := Mapping(Put(v.entries, path[0], c));
    assert Lookup(r.entries, path[0]) == Some(c);
    WritableStep(r, path, c);
    forall p | Diverge(p, path)
      ensures At(r, p) == At(v, p)
    {
      AtPut(v.entries, path[0], c, p);
      if p[0] == path[0] {
        assert Diverge(p[1..], path[1..]);
        assert At(v, p) == At(child, p[1..]);
      }
    }
  }

  /** Where two diverging paths part: every prefix of `q` is either a
      proper prefix of `p` as well, or already diverges from `p`. */
  lemma {:induction false} DivergePrefix(q: seq<string>, p: seq<string>, i: nat)
    requires Diverge(q, p) && i <= |q|
    ensures (i < |p| && q[..i] == p[..i]) || Diverge(q[..i], p)
    decreases |q|
  {
    if i > 0 && q[0] == p[0] {
      DivergePrefix(q[1..], p[1..], i - 1);
      assert q[..i][1..] == q[1..][..i - 1];
      if i - 1 < |p| - 1 && q[1..][..i - 1] == p[1..][..i - 1] {
        assert q[..i] == [q[0]] + q[1..][..i - 1];
        assert p[..i] == [p[0]] + p[1..][..i - 1];
      }
    }
  }

  /** A nested assignment at `p` leaves every path that diverges from `p`
      exactly as writable as it was. */
  lemma WritableKept(v: Value, p: seq<string>, x: Value, q: seq<string>)
    requires |p| > 0 && SetAt(v, p, x).Ok? && Diverge(q, p)
    ensures Writable(SetAt(v, p, x).value, q) <==> Writable(v, q)
  {
    forall i | 0 <= i < |q|
      ensures At(SetAt(v, p, x).value, q[..i]).Some? && At(SetAt(v, p, x).value, q[..i]).value.Mapping? <==>
              At(v, q[..i]).Some? && At(v, q[..i]).value.Mapping?
    {
      PrefixKept(v, p, x, q, i);
    }
  }

  /** One prefix of a path that diverges from the assigned one leads to a
      mapping after the assignment exactly when it did before. */
  lemma PrefixKept(v: Value, p: seq<string>, x: Value, q: seq<string>, i: nat)
    requires |p| > 0 && SetAt(v, p, x).Ok? && Diverge(q, p) && i < |q|
    ensures At(SetAt(v, p, x).value, q[..i]).Some? && At(SetAt(v, p, x).value, q[..i]).value.Mapping? <==>
            At(v, q[..i]).Some? && At(v, q[..i]).value.Mapping?
  {
    var r := SetAt(v, p, x).value;
    DivergePrefix(q, p, i);
    if i < |p| && q[..i] == p[..i] {
      assert At(r, p[..i]).Some? && At(r, p[..i]).value.Mapping?;
      assert At(v, p[..i]).Some? && At(v, p[..i]).value.Mapping?;
    }
  }

  /** Reading back through a mapping after one assignment in it. */
  lemma AtPut(es: seq<Entry>, k: string, c: Value, p: seq<string>)
    requires |p| > 0
    ensures At(Mapping(Put(es, k, c)), p) == if p[0] == k then At(c, p[1..]) else At(Mapping(es), p)
  {
  }
}
